=== FILE: README.md ===
# A Dafny model of the 2048 game core

The repository is a small 2048 clone. It draws a 4x4 grid of coloured
squares with Vulkan in an SDL window. This project models the logic of the
program in Dafny and proves properties of that model:

- **the game** (`grid.dfy`, `input.dfy`, `game.dfy`):
  - the event fold at the top of `game_update`;
  - the choice of one direction per update;
  - the slide-and-merge move, in all four directions;
  - the spawn of a new tile after a move;
  - the first tile placed by `game_new`.
- **start-up** (`devices.dfy`, `surface.dfy`, `memtype.dfy`):
  - the rating and selection of a GPU, with its extension test and queue-family scan;
  - the surface negotiation of `find_device_capabilities`;
  - the per-image sizing of the swapchain and its rebuild;
  - the memory-type search of `create_buffer`.
- **rendering** (`quads.dfy`, `frames.dfy`):
  - the quads `game_render` writes into the staging buffers;
  - the size of the recorded draw;
  - the frame-slot and fence bookkeeping of the main loop.
- **teardown** (`teardown.dfy`, `memdesc.dfy`):
  - the ordered sweep of `main_cleanup` over the handle record;
  - the recursive release of the game's memory descriptors.
- `config.dfy` holds the constants of `code/config.hh` and the sizes of the records in `code/types.hh`.

Modelling conventions:

- The grid is a sequence of `grid_w * grid_h` exponents, with 0 for an empty cell.
  `code/types.hh` declares a fixed 16-cell array, but `game_new` assigns a pointer to it.
- A move in any direction is modelled on lines. Line `j` is read from the wall outward.
  `MoveTiles` follows the source's loop order over the whole grid. It is proved equal, line by line, to the per-line reference `MoveLine`.
- Merges cascade. The source keeps no "already merged" mark, so `[1,1,2,0]` moved left becomes `[3,0,0,0]`.
- The random generator is an oracle. `pcg_random_in(lo, hi)` is inclusive. The caller supplies the raw draw, and `RandomIn` reduces it into `[lo, hi]`.
- The `for_each_in_range` loop macros are taken to be inclusive of both bounds.
- The `mam_stack` arena is modelled by its size alone.
- GPU objects are modelled as plain numbers.
- Fences take abstract states. GPU work is not modelled as concurrent.
- Each finding has an as-written member and a corrected one, and the rest of the model builds on the corrected one.
  `Game.NewGame` uses `Game.NewGrid`. `Frames.TickStep` uses `Frames.Draw` and `Frames.Rebuild`. `Teardown.CleanupGuarded` is the guarded sweep.
- One iteration of the main loop is a `Frames.Tick`: an optional resize (line 1366) and an optional frame (lines 1367-1419).

Where the game's design description and the code differ, the model follows the code:

- Every cell emits a quad, the empty ones included (`Quads.EmitQuads`).
- The extension test accepts a GPU that offers ANY of the required extensions (`Devices.HasRequiredExtensions`).
  With the single configured extension, this is the same as requiring all of them (`Devices.ConfiguredExtensionTest`).

## Model

| member | source | states |
|---|---|---|
| Grid.Cell | code/main.cc:779-871 | the four direction loops address the cell at distance k from the wall on line j; that cell lies inside the grid |
| Grid.CellInjective | code/main.cc:779-871 | different (line, position) pairs name different cells, so a move works on disjoint lines |
| Grid.CellSurjective | code/main.cc:779-871 | every cell of the grid lies on some line of every direction |
| Grid.LinesAfterWrite | code/main.cc:786-793 | a write to one cell changes exactly one position of one line and no other line |
| Grid.GridFromLines | code/main.cc:779-871 | two grids with the same lines in a direction are the same grid |
| Grid.Slide | code/main.cc:784-799 | the collision loop of one tile keeps the line length, merges at most once and leaves the cells beyond the tile alone |
| Grid.Sweep | code/main.cc:779-801 | processing the first n positions never touches positions n and beyond |
| Grid.Step | code/main.cc:782-799 | an empty position leaves the line alone, otherwise its tile slides; at most one merge, positions beyond it untouched, and a step that moves nothing changes nothing |
| Grid.MoveLine | code/main.cc:779-801 | the move of one line keeps its length, and a move that reports no movement leaves the line as it was |
| Grid.SlidePacks | code/main.cc:784-799 | if no tile below the moving tile is beyond an empty cell, then after its slide that holds one position further |
| Grid.SweepPacks | code/main.cc:779-801 | after the sweep of n positions, no tile among them sits beyond an empty cell |
| Grid.MoveLinePacks | code/main.cc:779-871 | after a move, the tiles of every line form an unbroken run from the wall |
| Grid.SlideConserves | code/main.cc:784-799 | one slide keeps the sum of 2^v over the tiles, and each merge removes exactly one tile |
| Grid.ShiftConserves | code/main.cc:786-790 | moving a tile into an empty neighbour keeps both the sum of 2^v and the tile count |
| Grid.MergeConserves | code/main.cc:791-795 | a merge keeps the sum of 2^v (two tiles 2^v become one 2^(v+1)) and removes exactly one tile |
| Grid.SweepConserves | code/main.cc:779-801 | one line's sweep keeps the sum of 2^v over that line, and the line's tile count drops by the number of merges on it |
| Grid.MoveLineConserves | code/main.cc:779-801 | moving a line of tiles keeps it a line of tiles with the same sum of 2^v, and one tile fewer per merge |
| Grid.SweepStill | code/main.cc:779-801 | a sweep that reports no movement left the line as it was |
| Grid.CascadeExample | code/main.cc:791-795 | merges cascade: [1,1,2,0] becomes [3,0,0,0] with two merges |
| Grid.SlideTile | code/main.cc:782-799 | one iteration of the middle loop changes line j exactly as the reference step does and no other line |
| Grid.SlideStep | code/main.cc:784-798 | one collision test either moves the tile into the empty cell and goes on, or merges or stops; either way line j ends as the reference slide says and no other line changes |
| Grid.SlideLevel | code/main.cc:779-801 | one pass at distance k applies the reference step to every line, and `moved` is set iff some line moved |
| Grid.MoveTiles | code/main.cc:779-871 | the source's loop order yields, on every line, the reference move of that line; `moved` holds iff some line changed; on a grid of tiles the sum of 2^v is kept and the tile count drops by the merges of all lines |
| Grid.SweepStart | code/main.cc:779 | before the outer loop, every line equals its reference sweep up to the start position (1, or 0 for up), and nothing has moved |
| Grid.NextLevel | code/main.cc:779-801 | one more pass of the middle loop advances every line's reference sweep by one position, and `moved` accumulates |
| Grid.MoveLevel | code/main.cc:779-801 | one iteration of the outer loop keeps the invariant that every line equals its reference sweep so far |
| Grid.MoveLevels | code/main.cc:779-801 | the outer loop from any start position brings every line to its full reference sweep |
| Grid.StillGridUnchanged | code/main.cc:872 | when no line moved, the move left the grid unchanged, so no spawn follows |
| Grid.LinesTotalUpdate | code/main.cc:786-793 | writing one cell changes the sum over lines of any cell-wise total exactly as it changes that cell |
| Grid.GridTotalIsLinesTotal | code/main.cc:779-871 | the lines of any direction cover the grid once, so a cell-wise total of the grid is the sum of its totals over the lines |
| Grid.ListsConserve | code/main.cc:779-871 | per-line conservation of weight and of tiles less merges adds up over any number of lines |
| Grid.MoveConserves | code/main.cc:779-871 | a whole move in any direction keeps the sum of 2^v over the grid, and the number of tiles drops by exactly the merges of all lines |
| Input.Apply | code/main.cc:681-770 | an event that does not end the loop keeps the quit flag, changes only the key it presses, and a key repeat changes nothing |
| Input.ClearJust | code/main.cc:672-678 | every "just pressed" flag is cleared and every down flag kept |
| Input.HandleEvents | code/main.cc:668-775 | `game_quit` is set iff some polled event ends the loop, and then the output does not draw; otherwise `do_draw` follows the last shown/exposed/hidden/minimized handled event; `window_resize` iff a handled event is a size change |
| Input.Handled | code/main.cc:681-757 | the handled events are a prefix of the polled ones, none of which ends the loop; the event after them does |
| Input.Poll | code/main.cc:681-774 | the front-to-back poll loop equals the reference fold over the handled events, with quit set iff some event ends the loop |
| Input.ApplyAllKeys | code/main.cc:725-737 | an arrow's down flag follows its last non-repeat event; its just-pressed flag is set iff some event pressed it while it was up |
| Input.ApplyAllFlags | code/main.cc:752-767 | `do_draw` follows the last shown/exposed/hidden/minimized event; the resize flag is set iff a size change occurred |
| Input.HandleEventsSpec | code/main.cc:668-775 | one update's event handling: key flags, draw flag, resize and quit as above; on quit the output does not draw |
| Input.RepeatsIgnored | code/main.cc:725-737 | in the fold over the handled events, removing a key repeat from anywhere changes nothing (a repeated Escape press is not handled: lines 700-702 end the loop on it) |
| Input.ApplyAllSplit | code/main.cc:681-770 | folding a + b equals folding a and then b |
| Game.RandomIn | code/main.cc:659-661 | an inclusive draw lies in [lo, hi] |
| Game.RandomInReaches | code/main.cc:659-661 | every value of [lo, hi] is drawn by some raw value |
| Game.Chosen | code/main.cc:779-871 | no direction iff no arrow was just pressed; otherwise a just-pressed arrow with no just-pressed arrow before it in the order left, right, up, down |
| Game.EmptyCells | code/main.cc:873-883 | the scan lists exactly the empty cells, in increasing index order |
| Game.Spawn | code/main.cc:872-886 | a full grid is unchanged; otherwise exactly one previously empty cell receives a 1 or a 2 |
| Game.SpawnExactlyWhenEmptyCell | code/main.cc:884-886 | the spawn leaves the grid unchanged iff no cell is empty |
| Game.Update | code/main.cc:668-896 | on quit, or with no direction chosen, the grid is untouched; otherwise every line is moved by the reference move, and a spawn follows iff some line moved |
| Game.GridFitsStorage | code/types.hh:22-24 | every cell of a grid of at most 16 cells indexes the fixed storage |
| Game.NewGridAsWritten | code/main.cc:655-663 | draws of x and y in [0, 4] fault exactly when y = 4, or x = 4 and y = 3, i.e. when x + 4y passes the 16-cell storage |
| Game.NewGridAsWrittenOneTile | code/main.cc:655-663 | when the write lands inside the storage, the grid holds exactly one tile, a 1 or a 2 |
| Game.NewGridAsWrittenOverruns | code/main.cc:660-662 | draws x = y = 4 write index 20 of the 16-cell grid |
| Game.NewGridAsWrittenWraps | code/main.cc:660-662 | a draw of x = 4 alone puts the tile in the first column of the next row |
| Game.NewGrid | code/main.cc:655-663 | with x and y drawn inside the grid, the new grid holds exactly one tile, a 1 or a 2 |
| Game.NewGameAsWritten | code/main.cc:633-666 | as written, the new game faults exactly when the first tile's index passes the 16-cell storage; otherwise its grid holds exactly one tile, a 1 or a 2, no key is down and the first frame is drawn |
| Game.NewGame | code/main.cc:633-666 | the corrected `game_new`: the grid fits its storage and holds exactly one tile, a 1 or a 2, no key is down and the first frame is drawn; wherever the as-written game exists it differs from this one at most in the grid |
| Devices.HasRequiredExtensions | code/main.cc:1146-1154 | the nested loop returns true iff some required extension is offered |
| Devices.ConfiguredExtensionTest | code/config.hh:16-17 | with the single configured extension, the any-test and the all-test agree: both hold iff VK_KHR_swapchain is offered |
| Devices.AnyTestAcceptsPartialSupport | code/main.cc:1146-1154 | with two required names, a GPU offering only one passes the any-test but not the all-test |
| Devices.ScanQueues | code/main.cc:1177-1191 | with a family that draws and presents, both roles go to the highest-index such family, with the bonus; otherwise draw goes to the lowest graphics family and present to the lowest presenting family |
| Devices.Rate | code/main.cc:1137-1197 | a GPU is rejected iff it lacks geometry shaders, the extension, formats, present modes or a draw or present family; otherwise its rating is 1 + 1024 if discrete + the largest 2D image side + 1023 with a shared family |
| Devices.SelectDevice | code/main.cc:1118-1209 | no GPU is selected iff none is adequate; otherwise the selected one is adequate, has the highest rating, and is the first with that rating |
| Surface.Clamp | code/main.cc:183-184 | the result lies in [lo, hi] and equals the value when the value already lies there |
| Surface.ChooseExtent | code/main.cc:183-184 | each side of the extent lies in the surface's range, and a drawable side already in range is kept |
| Surface.RequestedImageCount | code/main.cc:187-190 | one more image than the minimum, capped by a nonzero maximum |
| Surface.ChoosePresentMode | code/main.cc:202-214 | FIFO iff no fast mode is offered; otherwise the first fast mode offered |
| Surface.ChooseFormat | code/main.cc:222-229 | the preferred sRGB format when offered, otherwise the first offered format |
| Surface.FindDeviceCapabilities | code/main.cc:175-231 | MAILBOX if offered, else FIFO; vsync iff MAILBOX is not offered; the preferred format iff offered; the arena is back at its starting size |
| Surface.ChooseSharing | code/main.cc:246-256 | exclusive sharing iff one family draws and presents; otherwise concurrent between the two families |
| Surface.CreateSwapchain | code/main.cc:268-345 | every per-image array has the platform's image count; each uniform slice lies inside the buffer and no two slices overlap; the arena grows by the six arrays |
| Surface.SliceFits | code/main.cc:294-331 | slice i of the uniform buffer ends within the buffer of n slices |
| Surface.RecreateSwapchain | code/main.cc:582-603 | after a rebuild, the arena holds exactly one swapchain's arrays above the mark where they began; every per-image array has the new platform count, the sharing mode is chosen from the two families, and the uniform slices lie inside the buffer without overlapping |
| MemoryType.FindMemoryType | code/main.cc:111-125 | -1 iff no memory type is both allowed by the filter and has every wanted flag; otherwise the lowest such type |
| Quads.Colour | code/main.cc:923-955 | the palette entry is the tile value clamped to the last of the 12 entries |
| Quads.Corners | code/main.cc:948-961 | the square at (x, y) starts at pitch * x + 10 and pitch * y + 10, has sides pitch - 20 and one colour |
| Quads.QuadIndices | code/main.cc:962-965 | two triangles over four consecutive vertices, each index within base .. base + 3 |
| Quads.EmitQuads | code/main.cc:950-971 | 4 vertices and 6 indices for EVERY cell, empty ones included; cell (x, y) gets its own square and colour at quad x + w*y; every index names a written vertex |
| Quads.EmitRow | code/main.cc:951-970 | one row of the inner loop extends the emitted quads by the cells of that row |
| Quads.EmitOne | code/main.cc:952-969 | appending one cell's quad keeps all earlier quads in place |
| Quads.DrawOverreadsAsWritten | code/main.cc:567-572 | the recorded draw of INDEX_BUFFER_SIZE / 4 indices exceeds the indices any frame writes; for 4x4, 262048 more |
| Quads.RenderFrame | code/main.cc:950-996 | with the draw sized to the written indices, every drawn index names a vertex written in the same frame, and a full grid fits both staging buffers |
| Quads.BuffersFit | code/config.hh:33-34 | 16 cells need 1280 vertex bytes and 384 index bytes, within the 1 MiB buffers |
| Frames.FrameSlot | code/main.cc:1368 | the frame slot is below FramesInFlight |
| Frames.SlotsAlternate | code/main.cc:1368 | consecutive frames use different slots, and each slot returns every FramesInFlight frames |
| Frames.Start | code/main.cc:1255-1266 | all in-flight fences start signalled and every table entry is null |
| Frames.Idle | code/main.cc:1422-1455 | an iteration that does not draw touches no fence or table entry, keeps every wait passable, and hands the next iteration the other frame slot (`lifetime_frames += 1` runs on every iteration) |
| Frames.DrawAsWritten | code/main.cc:1368-1419 | an index past the table iff the acquire is tolerated and the image index exceeds the table; a hang only from a state with a fence no wait can pass, including the render's wait for the draw queue to go idle; a drawn frame starts from a state with no stuck fence; fatal only on a failed acquire, submit or present; a drawn frame never asks for a rebuild; after OUT_OF_DATE the slot's fence is stuck |
| Frames.FenceTableOverrun | code/main.cc:1379-1383 | with the 2-entry table allocated at line 1257, image 2 of a 3-image swapchain indexes past the end |
| Frames.OutOfDateHangsAsWritten | code/main.cc:1373-1416 | an OUT_OF_DATE acquire on frame 0, then an idle frame, leaves frame 2 waiting forever |
| Frames.OutOfDateHangsNextFrameAsWritten | code/main.cc:169-170 | after an OUT_OF_DATE acquire on frame 0, frame 1 passes its own fence but hangs in the render, whose vertex copy waits for a draw queue that still holds the stuck submit |
| Frames.Draw | code/main.cc:1368-1419 | the corrected frame never hangs or overruns; it is fatal exactly on a failed acquire, or on a failed submit or present after a usable acquire; it asks for a rebuild iff the acquire was OUT_OF_DATE or the present was not plain success (a suboptimal acquire is tolerated); it hands the image to the slot whose fence is then pending |
| Frames.Rebuild | code/main.cc:582-603 | the corrected `recreate_swap_chain`: its fences are those the as-written rebuild leaves, and the image-fence table is remade with one null entry per new image |
| Frames.RebuildAsWritten | code/main.cc:582-603 | as written, the idle wait lets every pending fence signal and never returns on a stuck one; the image-fence table and the frame count are left as they were |
| Frames.DrawAgreesOnSuccess | code/main.cc:1368-1419 | on a successful or suboptimal acquire of an image the table covers, a successful submit and a successful present, the as-written and corrected frames agree |
| Frames.TickStep | code/main.cc:1362-1420 | one iteration, with a resize rebuilding first: it stops exactly on a fatal frame; otherwise every wait stays passable and one frame is counted |
| Frames.RunTicks | code/main.cc:1361-1455 | the corrected loop over any ticks keeps every wait passable and runs to the end, or stops exactly at the first fatal tick |
| Teardown.DestroyAll | code/main.cc:54-56 | an array loop destroys each entry once, in order |
| Teardown.RunStep | code/main.cc:51-78 | every call of a step carries that step's rank |
| Teardown.Plan | code/main.cc:51-78 | the sweep has 23 steps in source order |
| Teardown.PlanStep | code/main.cc:51-78 | step i of the sweep handles the slot whose rank is i, the wait for the device first |
| Teardown.DestroyedInAll | code/main.cc:54-66 | the handles destroyed in a loop's slot are exactly its entries |
| Teardown.RunPlanRanks | code/main.cc:51-78 | a plan with ascending step ranks issues its calls in rank order |
| Teardown.RunPlan | code/main.cc:51-78 | a crash ends the sweep, so the sweep crashes iff one of its steps does |
| Teardown.RunPlanSlots | code/main.cc:51-78 | each slot receives exactly the calls of the one step of its rank |
| Teardown.CleanupOfZero | code/main.cc:51-78 | a zero record issues no call at all, guarded or not |
| Teardown.CleanupOrdered | code/main.cc:51-78 | both sweeps destroy in the source's fixed order, device and instance last |
| Teardown.SingleHandleDestroyedOnce | code/main.cc:58-78 | a single handle is destroyed exactly once when non-null, never when null |
| Teardown.LoopDestroysEntries | code/main.cc:53-66 | an enabled array loop destroys its first `count` entries in turn; a disabled one destroys nothing |
| Teardown.SweepCrashesOnMissingViews | code/main.cc:66 | on a record initialisation can leave, the sweep as written crashes iff `swap_chain_size` is set and the image-view array is null |
| Teardown.GuardedSweepNeverCrashes | code/main.cc:59-66 | with a null check on the image views like the framebuffers', the sweep never crashes on such a record |
| Teardown.Cleanup | code/main.cc:51-78 | `main_cleanup` as written: calls in the source's fixed order, none for a zero record, and on a consistent record a crash iff the image views are missing while `swap_chain_size` is set |
| Teardown.CleanupGuarded | code/main.cc:51-78 | the sweep with the image-view loop guarded: the same order, no call for a zero record, and never a crash on a consistent record |
| Teardown.FailedSwapchainCrashes | code/main.cc:263-272 | the record a failed `vkCreateSwapchainKHR` leaves (start-up's instance, surface, device, semaphores, fences, shader modules, command pool, vertex and index buffers and descriptor-set layout; `swap_chain_size` set; no image views) is consistent; the sweep crashes on it and the guarded sweep does not |
| GameMemory.FlagTestsIndependent | code/types.hh:3-4 | the TEMP and INTERNAL flags are distinct single bits, so setting or clearing one never changes the other's test |
| GameMemory.FreeRecursively | code/main.cc:609-619 | the freed blocks are exactly the blocks the descriptor owns, its own block comes last, and afterwards every owned pointer is null and INTERNAL children are untouched |
| GameMemory.FreeFrom | code/main.cc:610-616 | the child loop frees exactly the blocks of its non-INTERNAL children and leaves the INTERNAL ones as they were |
| GameMemory.GameDesc | code/main.cc:633-648 | the game descriptor has two children: the game stack, INTERNAL, and the separate temp stack |
| GameMemory.GameDescReadable | code/main.cc:634-648 | the game descriptor's two child records fit in its block |
| GameMemory.FreeGameReleasesTwoBlocks | code/main.cc:609-648 | freeing the game descriptor frees exactly the temp stack and then the game block, never the interior game stack |

## Left out

- Vulkan object creation, SDL windowing, file reading and shader loading are left out. They are foreign calls; their results enter the model as parameters.
- GPU execution, semaphores and the present engine are left out. This is concurrency; fences keep only abstract states.
- Timers, frame pacing, `lifetime` and `delta` are left out. They are clocks and floating point.
- The main loop's call of `game_update` is not composed with the frame model. A `Frames.Tick` takes the resize and draw flags as given; `Input.HandleEvents` states how the update computes them.
- The colour ramp, the uniform transform and the float positions are left out; they are floating point. Positions are whole pixels, and colours are palette indices.
- The PCG generator is left out, because each draw is an oracle parameter. The modulo reduction in `RandomIn` stands in for `pcg_random_in`.
- The internals of `mam_stack` and `malloc`/`free` are left out: a stack push that overflows, and a failing allocation. The arena is a size, and blocks are numbers.
- Game.Update: does not model 32-bit wrap-around of the tile exponents. An exponent would need to reach 2^31 merges.
- Devices.Rate: does not model 32-bit wrap-around of the rating. The sum of 1 + 1024 + 1023 and the image side stays far below 2^31 for real devices.
- The error macros `ERRORL` and `MAM_ERRORL` are defined in a header that is not part of this model. They are taken to call the error trap that `main` installs (code/main.cc:1008). That trap, `main_trap` (code/main.cc:90-94), runs `main_cleanup` and ends the program. The trap and exit mechanics are left out. A fatal error is modelled as a terminal result: `Frames.Fatal`, `MemoryType.FindMemoryType`'s -1, no device from `Devices.SelectDevice`, and the failed swapchain creation in `Teardown.FailedSwapchain`, which reaches `main_cleanup` this way.
- Surface.Clamp: `gb_clamp` is defined in a header that is not part of this model. It is taken to be `min(max(v, lo), hi)`.
- Surface.CreateSwapchain: the platform's image count is a free parameter. The model does not relate it to the requested count, because the platform may return more.
- Frames.DrawAsWritten: on an OUT_OF_DATE acquire, `image_i` is taken to keep its initial 0. The platform does not promise to write the index on that result.
- The size of the `Game` record, and so the game stack's byte count, is a parameter of `GameMemory.GameDesc`. That size depends on the target's struct layout.

## Findings

| source | as written | input that shows it | evidently intended | confidence | as-written member | corrected member |
|---|---|---|---|---|---|---|
| code/main.cc:660-661 | `x` and `y` are drawn with `pcg_random_in(rng, 0, grid_w)`, inclusive of 4 | draws x = 4, y = 4 write index 20 of the 16-cell grid | draw in [0, grid_w - 1] and [0, grid_h - 1], as the spawn at line 885 does | high; not executed | Game.NewGridAsWrittenOverruns | Game.NewGrid |
| code/main.cc:1257, 1265, 1379-1383 | `images_in_flight_fences` has MVK_FRAMES_IN_FLIGHT = 2 entries but is indexed by the image index | a swapchain of 3 images (min + 1 on a typical surface) and an acquire of image 2 | one entry per swapchain image, remade when `recreate_swap_chain` changes the image count | high; not executed | Frames.FenceTableOverrun | Frames.Draw, Frames.Rebuild |
| code/main.cc:1373-1416 | an OUT_OF_DATE acquire goes on to submit, waiting on a semaphore the failed acquire never signals | OUT_OF_DATE on frame 0; the next drawn frame already hangs in the render's wait for the draw queue to go idle (main.cc:169-170), and after an idle frame instead, frame 2 waits on the stuck fence forever | skip the frame before resetting the fence, and rebuild the swapchain | medium; not executed | Frames.OutOfDateHangsNextFrameAsWritten | Frames.Draw |
| code/main.cc:66 | the image-view loop runs `swap_chain_size` times without checking the array pointer | `vkCreateSwapchainKHR` fails after line 187 set the size, before line 272 allocated the views | check the pointer first, as the framebuffer loop does | high; not executed | Teardown.FailedSwapchainCrashes | Teardown.CleanupGuarded |
| code/main.cc:567-572 | every command buffer draws INDEX_BUFFER_SIZE / 4 = 262144 indices | the 4x4 game writes 96 indices per frame, so 262048 entries are never written | draw the 6 indices per cell that the frame wrote | high; not executed | Quads.DrawOverreadsAsWritten | Quads.RenderFrame |

=== FILE: config.dfy ===
/** Build-time constants of the game (code/config.hh) and the byte sizes of
    the records that the renderer copies into GPU buffers (code/types.hh),
    on a 64-bit target. */
module Config {

  /** MEGABYTE, the unit every buffer and stack capacity is expressed in. */
  const Megabyte: nat := 1024 * 1024

  /** MVK_FRAMES_IN_FLIGHT: number of frame slots (semaphore pairs and fences). */
  const FramesInFlight: nat := 2

  /** VERTEX_BUFFER_SIZE and INDEX_BUFFER_SIZE: staging capacities in bytes. */
  const VertexBufferSize: nat := Megabyte
  const IndexBufferSize: nat := Megabyte

  /** TEMP_STACK_SIZE and GAME_STACK_SIZE: the two game allocations. */
  const TempStackSize: nat := Megabyte
  const GameStackSize: nat := Megabyte

  /** PEDAL_TO_THE_METAL is 0 in the debug and in the release build. */
  const PedalToTheMetal: bool := false

  /** MVK_DEVICE_EXTENSIONS: the device extensions a GPU must offer. */
  const DeviceExtensions: seq<string> := ["VK_KHR_swapchain"]

  /** Cells of the fixed grid storage `int32 grid[4*4]`. */
  const GridStorage: nat := 4 * 4

  /** sizeof(Vertex): a gbVec2 position and a gbVec3 colour, 4-byte floats. */
  const VertexBytes: nat := 2 * 4 + 3 * 4

  /** sizeof(int32), the index type the draw binds (VK_INDEX_TYPE_UINT32). */
  const IndexBytes: nat := 4

  /** sizeof(UniformBufferObject): three 4x4 float matrices. */
  const UniformBytes: nat := 3 * 16 * 4

  /** sizeof(GameMemDesc): pointer, 64-bit size, int and uint. */
  const MemDescBytes: nat := 8 + 8 + 4 + 4

  /** Vertices and indices emitted for one grid cell (one quad, two triangles). */
  const VerticesPerQuad: nat := 4
  const IndicesPerQuad: nat := 6

  /** The last entry of the colour palette (colors_size - 1). */
  const LastColour: nat := 11

  /** The one-queue bonus and the discrete-GPU bonus of the device rating. */
  const DiscreteBonus: nat := 1024
  const SingleQueueBonus: nat := 1023

}

=== FILE: devices.dfy ===
/** Picking the physical device (code/main.cc:1111-1209): each GPU is rated,
    GPUs missing a hard requirement are skipped, and the first GPU with the
    strictly highest rating is kept together with its draw and present
    queue families. */
module Devices {
  import Config
  import opened Wrappers

  datatype DeviceType = Discrete | Integrated | VirtualGpu | Cpu | OtherType

  /** What the rating reads of one queue family: the graphics flag and the
      surface-support answer for the game's surface. */
  datatype QueueFamily = QueueFamily(graphics: bool, canPresent: bool)

  /** What the rating reads of one physical device. */
  datatype Device = Device(
    deviceType: DeviceType,
    maxImageDimension2D: nat,
    geometryShader: bool,
    extensions: seq<string>,
    formatCount: nat,
    presentModeCount: nat,
    queues: seq<QueueFamily>)

  // ---------------------------------------------------------------------
  // Extensions

  /** The extension test as the nested loop computes it: true as soon as
      ANY required name is among the offered ones. */
  predicate AnyRequiredOffered(required: seq<string>, offered: seq<string>)
  {
    exists i :: 0 <= i < |required| && required[i] in offered
  }

  /** The test its comment describes: every required name is offered. */
  predicate AllRequiredOffered(required: seq<string>, offered: seq<string>)
  {
    forall i :: 0 <= i < |required| ==> required[i] in offered
  }

  /** The nested loop over the required names and the offered extensions;
      the inner `break` leaves only the inner loop. */
  method HasRequiredExtensions(required: seq<string>, offered: seq<string>) returns (has: bool)
    ensures has <==> AnyRequiredOffered(required, offered)
  {
    has := false;
    for i := 0 to |required|
      invariant has <==> exists r :: 0 <= r < i && required[r] in offered
    {
      var k := 0;
      while k < |offered|
        invariant 0 <= k <= |offered|
        invariant required[i] !in offered[..k]
      {
        if required[i] == offered[k] {
          has := true;
          break;
        }
        k := k + 1;
      }
      assert k == |offered| ==> offered[..k] == offered;
    }
  }

  /** With the single configured extension the any-test and the all-test
      agree, so the configured build rejects exactly the GPUs without a
      swapchain. */
  lemma ConfiguredExtensionTest(offered: seq<string>)
    ensures AnyRequiredOffered(Config.DeviceExtensions, offered)
            <==> AllRequiredOffered(Config.DeviceExtensions, offered)
    ensures AnyRequiredOffered(Config.DeviceExtensions, offered) <==> "VK_KHR_swapchain" in offered
  {
    var required := Config.DeviceExtensions;
    assert |required| == 1 && required[0] == "VK_KHR_swapchain";
    if required[0] in offered {
      assert forall i :: 0 <= i < |required| ==> required[i] == required[0];
    }
  }

  /** With two required names the any-test accepts a GPU offering only one. */
  lemma AnyTestAcceptsPartialSupport()
    ensures AnyRequiredOffered(["A", "B"], ["A"])
    ensures !AllRequiredOffered(["A", "B"], ["A"])
  {
    assert ["A", "B"][0] in ["A"];
    assert ["A", "B"][1] !in ["A"];
  }

  // ---------------------------------------------------------------------
  // Queue families

  predicate Both(q: QueueFamily)
  {
    q.graphics && q.canPresent
  }

  datatype Role = Draws | Presents

  predicate Serves(q: QueueFamily, role: Role)
  {
    match role
    case Draws => q.graphics
    case Presents => q.canPresent
  }

  /** `i` is the lowest index of a family serving `role`, or -1 when none does. */
  predicate LowestOr(qs: seq<QueueFamily>, role: Role, i: int)
  {
    && (i == -1 <==> forall j :: 0 <= j < |qs| ==> !Serves(qs[j], role))
    && (i != -1 ==> 0 <= i < |qs| && Serves(qs[i], role) && forall j :: 0 <= j < i ==> !Serves(qs[j], role))
  }

  /** The outcome of the backward queue scan.  When some family can both
      draw and present, the highest such family serves both and earns the
      one-queue bonus; otherwise the draw family is the lowest graphics
      family and the present family the lowest presenting one. */
  predicate QueueChoice(qs: seq<QueueFamily>, draw: int, present: int, bonus: bool)
  {
    && (bonus <==> exists j :: 0 <= j < |qs| && Both(qs[j]))
    && (bonus ==> 0 <= draw < |qs| && present == draw && Both(qs[draw])
                  && forall j :: draw < j < |qs| ==> !Both(qs[j]))
    && (!bonus ==> LowestOr(qs, Draws, draw) && LowestOr(qs, Presents, present))
  }

  datatype Queues = Queues(draw: int, present: int, bonus: bool)

  /** The scan from the last family down to the first, stopping at the
      first family (from the top) that can draw and present. */
  method ScanQueues(qs: seq<QueueFamily>) returns (q: Queues)
    ensures QueueChoice(qs, q.draw, q.present, q.bonus)
  {
    var draw, present := -1, -1;
    var j := |qs|;
    while j > 0
      invariant 0 <= j <= |qs|
      invariant forall i :: j <= i < |qs| ==> !Both(qs[i])
      invariant draw == -1 || (j <= draw < |qs| && qs[draw].graphics)
      invariant forall i :: j <= i < |qs| && qs[i].graphics ==> draw != -1 && draw <= i
      invariant present == -1 || (j <= present < |qs| && qs[present].canPresent)
      invariant forall i :: j <= i < |qs| && qs[i].canPresent ==> present != -1 && present <= i
    {
      j := j - 1;
      if qs[j].graphics {
        draw := j;
        if qs[j].canPresent {
          present := j;
          return Queues(draw, present, true);
        }
      } else if qs[j].canPresent {
        present := j;
      }
    }
    q := Queues(draw, present, false);
  }

  // ---------------------------------------------------------------------
  // Rating

  /** A GPU the game can run on: geometry shaders, the extension test,
      at least one surface format and present mode, a graphics family and
      a presenting family. */
  predicate Adequate(dev: Device, required: seq<string>)
  {
    && dev.geometryShader
    && AnyRequiredOffered(required, dev.extensions)
    && dev.formatCount > 0 && dev.presentModeCount > 0
    && (exists j :: 0 <= j < |dev.queues| && dev.queues[j].graphics)
    && (exists j :: 0 <= j < |dev.queues| && dev.queues[j].canPresent)
  }

  /** The rating of an adequate GPU: 1, plus 1024 when discrete, plus the
      largest 2D image side, plus 1023 when one family draws and presents. */
  function Score(dev: Device): nat
  {
    1 + (if dev.deviceType == Discrete then Config.DiscreteBonus else 0)
      + dev.maxImageDimension2D
      + (if exists j :: 0 <= j < |dev.queues| && Both(dev.queues[j]) then Config.SingleQueueBonus else 0)
  }

  datatype Rating = Rejected | Rated(rating: nat, draw: nat, present: nat)

  /** One iteration of the device loop: the rating with its multiplicative
      gates, applied in the source's order. */
  method Rate(dev: Device, required: seq<string>) returns (r: Rating)
    ensures r.Rejected? <==> !Adequate(dev, required)
    ensures r.Rated? ==> r.rating == Score(dev) > 0
    ensures r.Rated? ==> QueueChoice(dev.queues, r.draw, r.present, r.draw == r.present)
    ensures r.Rated? ==> dev.queues[r.draw].graphics && dev.queues[r.present].canPresent
  {
    var rating: int := 1;
    if dev.deviceType == Discrete {
      rating := rating + Config.DiscreteBonus;
    }
    rating := rating + dev.maxImageDimension2D;
    rating := rating * (if dev.geometryShader then 1 else 0);
    var has := HasRequiredExtensions(required, dev.extensions);
    rating := rating * (if has then 1 else 0);
    if rating == 0 {
      return Rejected;
    }
    rating := rating * (if dev.presentModeCount > 0 && dev.formatCount > 0 then 1 else 0);
    if rating == 0 {
      return Rejected;
    }
    var q := ScanQueues(dev.queues);
    if q.bonus {
      rating := rating + Config.SingleQueueBonus;
    }
    rating := rating * (if q.draw >= 0 && q.present >= 0 then 1 else 0);
    if rating == 0 {
      if q.draw < 0 {
        assert forall j :: 0 <= j < |dev.queues| ==> !dev.queues[j].graphics;
      }
      return Rejected;
    }
    assert q.bonus <==> q.draw == q.present;
    r := Rated(rating, q.draw, q.present);
  }

  datatype Selected = Selected(index: nat, draw: nat, present: nat)

  /** The device loop: keep a GPU when its rating beats the best so far
      strictly; no adequate GPU is the fatal "Could not find an adequate
      vulkan compatible gpu". */
  method SelectDevice(devs: seq<Device>, required: seq<string>) returns (s: Option<Selected>)
    ensures s.None? <==> forall i :: 0 <= i < |devs| ==> !Adequate(devs[i], required)
    ensures s.Some? ==> s.value.index < |devs| && Adequate(devs[s.value.index], required)
    ensures s.Some? ==> forall i :: 0 <= i < |devs| && Adequate(devs[i], required) ==>
                          Score(devs[i]) <= Score(devs[s.value.index])
    ensures s.Some? ==> forall i :: 0 <= i < s.value.index && Adequate(devs[i], required) ==>
                          Score(devs[i]) < Score(devs[s.value.index])
    ensures s.Some? ==> var q := devs[s.value.index].queues;
                        QueueChoice(q, s.value.draw, s.value.present, s.value.draw == s.value.present)
  {
    var highest := 0;
    s := None;
    for i := 0 to |devs|
      invariant s.None? <==> forall k :: 0 <= k < i ==> !Adequate(devs[k], required)
      invariant s.None? ==> highest == 0
      invariant s.Some? ==> s.value.index < i && Adequate(devs[s.value.index], required)
                            && highest == Score(devs[s.value.index])
      invariant s.Some? ==> forall k :: 0 <= k < i && Adequate(devs[k], required) ==> Score(devs[k]) <= highest
      invariant s.Some? ==> forall k :: 0 <= k < s.value.index && Adequate(devs[k], required) ==> Score(devs[k]) < highest
      invariant s.Some? ==> var q := devs[s.value.index].queues;
                            QueueChoice(q, s.value.draw, s.value.present, s.value.draw == s.value.present)
    {
      var r := Rate(devs[i], required);
      if r.Rated? && highest < r.rating {
        highest := r.rating;
        s := Some(Selected(i, r.draw, r.present));
      }
    }
  }
}

=== FILE: frames.dfy ===
/** Frame-slot bookkeeping of the main loop (code/main.cc:1368-1419), with
    the semaphores and fences made at start-up (code/main.cc:1243-1266).

    Fences are abstract states, not concurrency.  A fence is created
    signalled.  A reset leaves it unsignalled.  A submit leaves it pending:
    the work will run and signal it.  A submit whose wait semaphore nobody
    will signal leaves it stuck.  Waiting returns once the fence is
    signalled, so it returns for a signalled or pending fence and never
    for an unsignalled or stuck one. */
module Frames {
  import Config
  import opened Wrappers

  datatype Fence = Signalled | Unsignalled | Pending | Stuck

  /** An `images_in_flight_fences` entry: VK_NULL_HANDLE, or the in-flight
      fence of a frame slot. */
  datatype Owner = NoFence | FenceOf(slot: nat)

  /** What `vkAcquireNextImageKHR` and `vkQueuePresentKHR` report, folded
      into the cases the loop tells apart. */
  datatype Acquired = AcquireSuccess | AcquireSuboptimal | AcquireOutOfDate | AcquireFailed
  datatype Presented = PresentSuccess | PresentSuboptimal | PresentOutOfDate | PresentFailed

  datatype Frames = Frames(fences: seq<Fence>, imageFences: seq<Owner>, count: nat)

  /** The outcome of one drawn iteration: the next state and whether the
      swapchain must be rebuilt, a wait that never returns, an index past
      the end of the image-fence table, or a fatal error. */
  datatype Outcome = Drawn(state: Frames, rebuild: bool) | Hang | OutOfRange(image: nat) | Fatal

  /** `frame_i`: the slot of the frame `lifetime_frames`. */
  function FrameSlot(count: nat): (slot: nat)
    ensures slot < Config.FramesInFlight
    ensures count < Config.FramesInFlight ==> slot == count
  {
    count % Config.FramesInFlight
  }

  /** Consecutive frames use different slots, and a slot comes round again
      every FramesInFlight frames. */
  lemma SlotsAlternate(count: nat)
    ensures FrameSlot(count) != FrameSlot(count + 1)
    ensures FrameSlot(count + Config.FramesInFlight) == FrameSlot(count)
  {
  }

  /** Every table entry names an existing in-flight fence. */
  predicate WellFormed(s: Frames)
  {
    && |s.fences| == Config.FramesInFlight
    && forall i :: 0 <= i < |s.imageFences| && s.imageFences[i].FenceOf? ==>
         s.imageFences[i].slot < Config.FramesInFlight
  }

  /** Every wait the loop can issue returns: no fence is left unsignalled
      or stuck between iterations. */
  predicate Live(s: Frames)
  {
    && WellFormed(s)
    && forall j :: 0 <= j < |s.fences| ==> s.fences[j] == Signalled || s.fences[j] == Pending
  }

  predicate Returns(f: Fence)
  {
    f == Signalled || f == Pending
  }

  /** The state after start-up: every fence signalled, and a table of
      `tableSize` null entries. */
  function Start(tableSize: nat): (s: Frames)
    ensures Live(s) && |s.imageFences| == tableSize && s.count == 0
    ensures forall i :: 0 <= i < tableSize ==> s.imageFences[i] == NoFence
  {
    Frames(seq(Config.FramesInFlight, _ => Signalled), seq(tableSize, _ => NoFence), 0)
  }

  /** An iteration that does not draw still counts a frame: it touches no
      fence and no table entry, keeps every wait passable, and hands the
      next iteration the other frame slot. */
  function Idle(s: Frames): (t: Frames)
    ensures t.count == s.count + 1 && t.fences == s.fences && t.imageFences == s.imageFences
    ensures Live(s) ==> Live(t)
    ensures FrameSlot(t.count) != FrameSlot(s.count)
  {
    s.(count := s.count + 1)
  }

  predicate AcquireTolerated(a: Acquired)
  {
    a != AcquireFailed
  }

  predicate PresentTolerated(p: Presented)
  {
    p != PresentFailed
  }

  /** The drawn iteration as written: wait on the slot's fence, acquire
      (OUT_OF_DATE is let through, and `image_i` keeps its initial 0),
      wait on the fence that owns the image, hand the image to this slot,
      reset the slot's fence, render, submit, present.  A failed acquire,
      submit or present is fatal.  The submit waits on the image-available
      semaphore, which an OUT_OF_DATE acquire never signals, so that submit
      never runs.  The render copies the vertex and index data with a
      submit followed by a wait for the draw queue to go idle, and a queue
      holding a submit that never runs never goes idle: a stuck fence left
      by an earlier frame hangs the render.  No result leads to a
      rebuild. */
  function DrawAsWritten(s: Frames, acquired: Acquired, image: nat, submitted: bool, presented: Presented): (o: Outcome)
    requires WellFormed(s)
    ensures o.Hang? ==> !Live(s)
    ensures o.OutOfRange? <==>
              Returns(s.fences[FrameSlot(s.count)]) && AcquireTolerated(acquired)
              && (if acquired == AcquireOutOfDate then 0 else image) >= |s.imageFences|
    ensures o == Fatal ==> acquired == AcquireFailed || !submitted || presented == PresentFailed
    ensures o.Drawn? ==> !o.rebuild && submitted && PresentTolerated(presented)
                         && o.state.count == s.count + 1 && WellFormed(o.state)
    ensures o.Drawn? ==> |o.state.imageFences| == |s.imageFences|
    ensures o.Drawn? ==> Stuck !in s.fences
    ensures o.Drawn? ==> (if acquired == AcquireOutOfDate then 0 else image) < |s.imageFences|
    ensures o.Drawn? ==> o.state.imageFences[if acquired == AcquireOutOfDate then 0 else image] == FenceOf(FrameSlot(s.count))
    ensures o.Drawn? && acquired == AcquireOutOfDate ==> o.state.fences[FrameSlot(s.count)] == Stuck
  {
    var slot := FrameSlot(s.count);
    if !Returns(s.fences[slot]) then Hang
    else
      var fences := s.fences[slot := Signalled];
      if !AcquireTolerated(acquired) then Fatal
      else
        var img := if acquired == AcquireOutOfDate then 0 else image;
        if img >= |s.imageFences| then OutOfRange(img)
        else
          var owner := s.imageFences[img];
          if owner.FenceOf? && !Returns(fences[owner.slot]) then Hang
          else
            var fences' := if owner.FenceOf? then fences[owner.slot := Signalled] else fences;
            var table := s.imageFences[img := FenceOf(slot)];
            if Stuck in fences' then Hang
            else
              var queued := fences'[slot := if acquired == AcquireOutOfDate then Stuck else Pending];
              if !submitted then Fatal
              else if !PresentTolerated(presented) then Fatal
              else
                assert forall j :: 0 <= j < |s.fences| ==> s.fences[j] != Stuck by {
                  forall j | 0 <= j < |s.fences|
                    ensures s.fences[j] != Stuck
                  {
                    assert fences'[j] in fences';
                  }
                }
                Drawn(Frames(queued, table, s.count + 1), false)
  }

  /** As written the table has FramesInFlight entries, so on a swapchain of
      three images the third image indexes past its end. */
  lemma FenceTableOverrun()
    ensures DrawAsWritten(Start(Config.FramesInFlight), AcquireSuccess, 2, true, PresentSuccess) == OutOfRange(2)
  {
  }

  /** As written, an OUT_OF_DATE acquire leaves the slot's fence stuck, and
      the next frame of that slot waits on it forever. */
  lemma OutOfDateHangsAsWritten()
    ensures DrawAsWritten(Start(Config.FramesInFlight), AcquireOutOfDate, 0, true, PresentSuccess).Drawn?
    ensures
      var s1 := DrawAsWritten(Start(Config.FramesInFlight), AcquireOutOfDate, 0, true, PresentSuccess).state;
      DrawAsWritten(Idle(s1), AcquireSuccess, 1, true, PresentSuccess) == Hang
  {
    var s0 := Start(Config.FramesInFlight);
    assert s0.fences == [Signalled, Signalled];
    var s1 := DrawAsWritten(s0, AcquireOutOfDate, 0, true, PresentSuccess).state;
    assert s1.fences[0] == Stuck;
    assert FrameSlot(Idle(s1).count) == 0;
  }

  /** As written, the very next drawn frame after an OUT_OF_DATE acquire
      already hangs: its slot's fence is fine, but the render waits for a
      queue that still holds the stuck submit. */
  lemma OutOfDateHangsNextFrameAsWritten()
    ensures DrawAsWritten(Start(Config.FramesInFlight), AcquireOutOfDate, 0, true, PresentSuccess).Drawn?
    ensures
      var s1 := DrawAsWritten(Start(Config.FramesInFlight), AcquireOutOfDate, 0, true, PresentSuccess).state;
      Returns(s1.fences[FrameSlot(s1.count)])
      && DrawAsWritten(s1, AcquireSuccess, 1, true, PresentSuccess) == Hang
  {
    var s0 := Start(Config.FramesInFlight);
    assert s0.fences == [Signalled, Signalled];
    var s1 := DrawAsWritten(s0, AcquireOutOfDate, 0, true, PresentSuccess).state;
    assert s1.fences == [Stuck, Signalled];
    assert FrameSlot(s1.count) == 1;
  }

  /** The corrected iteration: the table has one entry per swapchain image,
      and an OUT_OF_DATE acquire skips the frame before the slot's fence is
      reset and asks for a rebuild.  A suboptimal acquire is tolerated as
      the source does; an out-of-date or suboptimal present asks for a
      rebuild.  A failed acquire, submit or present stays fatal. */
  function Draw(s: Frames, acquired: Acquired, image: nat, submitted: bool, presented: Presented): (o: Outcome)
    requires Live(s)
    requires image < |s.imageFences|
    ensures !o.Hang? && !o.OutOfRange?
    ensures o == Fatal <==>
              acquired == AcquireFailed
              || (acquired != AcquireOutOfDate && (!submitted || presented == PresentFailed))
    ensures o.Drawn? ==> Live(o.state) && |o.state.imageFences| == |s.imageFences| && o.state.count == s.count + 1
    ensures o.Drawn? ==> (o.rebuild <==> acquired == AcquireOutOfDate || presented != PresentSuccess)
    ensures o.Drawn? && acquired == AcquireOutOfDate ==> o.state.imageFences == s.imageFences
    ensures o.Drawn? && acquired != AcquireOutOfDate ==>
              o.state.imageFences[image] == FenceOf(FrameSlot(s.count))
              && o.state.fences[FrameSlot(s.count)] == Pending
              && forall i :: 0 <= i < |s.imageFences| && i != image ==> o.state.imageFences[i] == s.imageFences[i]
  {
    var slot := FrameSlot(s.count);
    var fences := s.fences[slot := Signalled];
    if acquired == AcquireFailed then Fatal
    else if acquired == AcquireOutOfDate then Drawn(Frames(fences, s.imageFences, s.count + 1), true)
    else
      var owner := s.imageFences[image];
      var fences' := if owner.FenceOf? then fences[owner.slot := Signalled] else fences;
      var table := s.imageFences[image := FenceOf(slot)];
      var queued := fences'[slot := Pending];
      if !submitted then Fatal
      else if presented == PresentFailed then Fatal
      else Drawn(Frames(queued, table, s.count + 1), presented != PresentSuccess)
  }

  /** On the frames the original handles well, a successful or suboptimal
      acquire of an image the short table covers and a successful present,
      the two iterations agree, whatever the submit reports. */
  lemma DrawAgreesOnSuccess(s: Frames, acquired: Acquired, image: nat, submitted: bool)
    requires Live(s) && image < |s.imageFences|
    requires acquired == AcquireSuccess || acquired == AcquireSuboptimal
    ensures DrawAsWritten(s, acquired, image, submitted, PresentSuccess) == Draw(s, acquired, image, submitted, PresentSuccess)
  {
    var slot := FrameSlot(s.count);
    var owner := s.imageFences[image];
    if owner.FenceOf? {
      assert Returns(s.fences[slot := Signalled][owner.slot]);
    }
  }

  /** `recreate_swap_chain` as written: `vkDeviceWaitIdle` lets every
      submitted frame finish, so pending fences become signalled, and never
      returns while a submit waits on a semaphore nobody signals.  The
      image-fence table is not touched: it keeps its FramesInFlight entries
      whatever the new image count. */
  function RebuildAsWritten(s: Frames): (r: Option<Frames>)
    ensures r.None? <==> Stuck in s.fences
    ensures r.Some? ==> r.value.imageFences == s.imageFences && r.value.count == s.count
    ensures r.Some? ==> |r.value.fences| == |s.fences|
                        && forall i :: 0 <= i < |s.fences| ==>
                             r.value.fences[i] == if s.fences[i] == Pending then Signalled else s.fences[i]
  {
    if Stuck in s.fences then None
    else Some(s.(fences := seq(|s.fences|, i requires 0 <= i < |s.fences| =>
                                 if s.fences[i] == Pending then Signalled else s.fences[i])))
  }

  /** The corrected rebuild: the same idle wait, after which every fence of
      a live state is signalled, and the table is remade with one null entry
      per image of the new swapchain. */
  function Rebuild(s: Frames, images: nat): (t: Frames)
    requires Live(s)
    ensures Live(t) && |t.imageFences| == images && t.count == s.count
    ensures forall i :: 0 <= i < images ==> t.imageFences[i] == NoFence
    ensures RebuildAsWritten(s).Some? && t.fences == RebuildAsWritten(s).value.fences
  {
    var waited := RebuildAsWritten(s).value;
    assert forall i :: 0 <= i < |waited.fences| ==> waited.fences[i] == Signalled;
    waited.(imageFences := seq(images, _ => NoFence))
  }

  /** What the platform reports for one drawn frame: the acquire result,
      the image it picks (an oracle draw, reduced to an image of the
      current swapchain), whether the submit succeeded, the present result,
      and the image count of the swapchain a rebuild would make. */
  datatype FrameReport = FrameReport(acquired: Acquired, pick: nat, submitted: bool, presented: Presented, newImages: nat)

  /** One iteration of the main loop after `game_update`: a resize rebuilds
      the swapchain (into `resizeTo` images) before anything is drawn, and
      a frame is drawn when `frame` is present. */
  datatype Tick = Tick(resizeTo: Option<nat>, frame: Option<FrameReport>)

  predicate Fails(f: FrameReport)
  {
    f.acquired == AcquireFailed || (f.acquired != AcquireOutOfDate && (!f.submitted || f.presented == PresentFailed))
  }

  predicate Stops(t: Tick)
  {
    t.frame.Some? && Fails(t.frame.value)
  }

  /** Every swapchain the platform makes has at least one image. */
  predicate Sized(t: Tick)
  {
    && (t.resizeTo.Some? ==> t.resizeTo.value > 0)
    && (t.frame.Some? ==> t.frame.value.newImages > 0)
  }

  /** One iteration of the corrected loop, or None when it ends in a fatal
      error. */
  function TickStep(s: Frames, t: Tick): (r: Option<Frames>)
    requires Live(s) && |s.imageFences| > 0 && Sized(t)
    ensures r.None? <==> Stops(t)
    ensures r.Some? ==> Live(r.value) && |r.value.imageFences| > 0 && r.value.count == s.count + 1
  {
    var s1 := if t.resizeTo.Some? then Rebuild(s, t.resizeTo.value) else s;
    match t.frame
    case None => Some(Idle(s1))
    case Some(f) =>
      match Draw(s1, f.acquired, f.pick % |s1.imageFences|, f.submitted, f.presented)
      case Drawn(u, rebuild) => Some(if rebuild then Rebuild(u, f.newImages) else u)
      case _ => None
  }

  datatype Run = Ran(state: Frames) | StoppedAt(tick: nat)

  /** The corrected loop over a sequence of ticks never hangs and never
      indexes past the table: it runs to the end with every wait able to
      return, or stops at the first fatal error. */
  function RunTicks(s: Frames, ticks: seq<Tick>): (r: Run)
    requires Live(s) && |s.imageFences| > 0
    requires forall i :: 0 <= i < |ticks| ==> Sized(ticks[i])
    ensures r.Ran? ==> Live(r.state) && |r.state.imageFences| > 0 && r.state.count == s.count + |ticks|
    ensures r.Ran? <==> forall i :: 0 <= i < |ticks| ==> !Stops(ticks[i])
    ensures r.StoppedAt? ==> r.tick < |ticks| && Stops(ticks[r.tick])
                             && forall i :: 0 <= i < r.tick ==> !Stops(ticks[i])
    decreases |ticks|
  {
    if |ticks| == 0 then Ran(s)
    else
      var next := TickStep(s, ticks[0]);
      if next.None? then StoppedAt(0)
      else match RunTicks(next.value, ticks[1..])
        case Ran(t) => Ran(t)
        case StoppedAt(k) => StoppedAt(k + 1)
  }
}

=== FILE: game.dfy ===
/** The game state and `game_update` (code/main.cc:633-896) around the move
    of module Grid: choosing the direction, spawning a tile after a move,
    and the initial grid of `game_new`.

    The PCG generator is not modelled.  Each call `pcg_random_in(rng, lo,
    hi)` becomes `RandomIn(raw, lo, hi)`, where `raw` is the generator's
    draw supplied by the caller: whatever the draw, the result lies in the
    inclusive range, and every value of the range is reachable. */
module Game {
  import opened Grid
  import opened Input
  import Config
  import opened Wrappers

  function RandomIn(raw: nat, lo: int, hi: int): (r: int)
    requires lo <= hi
    ensures lo <= r <= hi
  {
    lo + raw % (hi - lo + 1)
  }

  lemma RandomInReaches(lo: int, hi: int, v: int)
    requires lo <= v <= hi
    ensures RandomIn((v - lo) as nat, lo, hi) == v
  {
  }

  /** The part of `Game` the update reads and writes; the stacks, the
      generator state and the float lifetime are left out. */
  datatype Game = Game(gridW: nat, gridH: nat, grid: seq<int>, keys: Keys, doDraw: bool)

  /** Priority of the direction keys: left, right, up, down. */
  function Priority(d: Dir): nat
  {
    match d
    case Left => 0
    case Right => 1
    case Up => 2
    case Down => 3
  }

  /** The if / else-if chain on the "just pressed" flags: at most one
      direction per update, the first in priority order. */
  function Chosen(keys: Keys): (m: Option<Dir>)
    ensures m.None? <==> forall d :: !keys.Get(d).justDown
    ensures m.Some? ==> keys.Get(m.value).justDown
    ensures m.Some? ==> forall d :: Priority(d) < Priority(m.value) ==> !keys.Get(d).justDown
  {
    if keys.left.justDown then assert keys.Get(Left).justDown; Some(Left)
    else if keys.right.justDown then assert keys.Get(Right).justDown; Some(Right)
    else if keys.up.justDown then assert keys.Get(Up).justDown; Some(Up)
    else if keys.down.justDown then assert keys.Get(Down).justDown; Some(Down)
    else None
  }

  /** Indices of the empty cells in the order the spawn scan meets them
      (rows top to bottom, columns left to right: increasing index). */
  function EmptyCells(g: seq<int>): (e: seq<nat>)
    ensures forall i :: 0 <= i < |e| ==> e[i] < |g| && g[e[i]] == 0
    ensures forall c :: 0 <= c < |g| && g[c] == 0 ==> c in e
    ensures forall a, b :: 0 <= a < b < |e| ==> e[a] < e[b]
  {
    if |g| == 0 then []
    else
      var n := |g| - 1;
      EmptyCells(g[..n]) + if g[n] == 0 then [n] else []
  }

  /** The spawn after a move: one empty cell, picked by the generator among
      all empty cells, receives a 1 or a 2 (a "2" or a "4" tile). */
  function Spawn(g: seq<int>, pickDraw: nat, tileDraw: nat): (r: seq<int>)
    ensures |r| == |g|
    ensures |EmptyCells(g)| == 0 ==> r == g
    ensures |EmptyCells(g)| > 0 ==>
              exists c :: 0 <= c < |g| && g[c] == 0 && 1 <= r[c] <= 2 && r == g[c := r[c]]
  {
    var empty := EmptyCells(g);
    if |empty| == 0 then g
    else
      var c := empty[RandomIn(pickDraw, 0, |empty| - 1)];
      g[c := RandomIn(tileDraw, 1, 2)]
  }

  /** A full grid admits no spawn; a grid with an empty cell always gets one. */
  lemma SpawnExactlyWhenEmptyCell(g: seq<int>, pickDraw: nat, tileDraw: nat)
    ensures (Spawn(g, pickDraw, tileDraw) == g) <==> (forall c :: 0 <= c < |g| ==> g[c] != 0)
  {
    var e := EmptyCells(g);
    if |e| > 0 {
      assert g[e[0]] == 0;
      var r := Spawn(g, pickDraw, tileDraw);
      var c :| 0 <= c < |g| && g[c] == 0 && 1 <= r[c] <= 2 && r == g[c := r[c]];
      assert r[c] != g[c];
    }
  }

  /** `game_update` after the event loop: the chosen direction's move, then
      a spawn if anything moved.  `slid` is the grid between the two. */
  method Update(game: Game, events: seq<Event>, pickDraw: nat, tileDraw: nat)
    returns (next: Game, out: Output, ghost slid: seq<int>)
    requires |game.grid| == game.gridW * game.gridH
    ensures var (p, o) := HandleEvents(game.keys, game.doDraw, events);
            next.keys == p.keys && next.doDraw == p.doDraw && out == o
    ensures next.gridW == game.gridW && next.gridH == game.gridH && |next.grid| == |game.grid|
    ensures out.gameQuit || Chosen(next.keys).None? ==> next.grid == game.grid
    ensures !out.gameQuit && Chosen(next.keys).Some? ==>
              var d, w, h := Chosen(next.keys).value, game.gridW, game.gridH;
              && |slid| == w * h
              && (forall j :: 0 <= j < LineCount(d, w, h) ==> Line(slid, d, w, h, j) == MoveLine(Line(game.grid, d, w, h, j)).line)
              && next.grid == if AnyLineMoved(game.grid, d, w, h) then Spawn(slid, pickDraw, tileDraw) else game.grid
  {
    var (p, o) := HandleEvents(game.keys, game.doDraw, events);
    next := game.(keys := p.keys, doDraw := p.doDraw);
    out := o;
    slid := game.grid;
    if out.gameQuit {
      return;
    }
    var w, h := game.gridW, game.gridH;
    match Chosen(p.keys)
    case None =>
    case Some(d) =>
      var g, moved := MoveTiles(game.grid, d, w, h);
      slid := g;
      if moved {
        g := Spawn(g, pickDraw, tileDraw);
      } else {
        StillGridUnchanged(game.grid, slid, d, w, h);
      }
      next := next.(grid := g);
  }

  // ---------------------------------------------------------------------
  // The initial grid of game_new

  /** The grid `game_new` sets up: 4 by 4 cells of the fixed storage. */
  const NewW: nat := 4
  const NewH: nat := 4

  /** Every cell (x, y) of a grid that fits the storage has an index inside
      the 16-cell array. */
  lemma GridFitsStorage(w: nat, h: nat, x: nat, y: nat)
    requires w * h <= Config.GridStorage && x < w && y < h
    ensures Index(x, y, w) < Config.GridStorage
  {
    IndexBound(x, y, w, h);
  }

  datatype Fault = OutOfRangeWrite(index: nat)

  datatype Placed = Placed(grid: seq<int>) | Faulted(fault: Fault)

  /** As written: `x` and `y` are drawn from `pcg_random_in(rng, 0,
      grid_w)`, an inclusive range one cell too wide, and the tile is
      written at `x + grid_w*y` of the 16-cell storage. */
  function NewGridAsWritten(vDraw: nat, xDraw: nat, yDraw: nat): (r: Placed)
    ensures r.Faulted? <==> yDraw % 5 == 4 || (xDraw % 5 == 4 && yDraw % 5 == 3)
    ensures r.Placed? ==> |r.grid| == Config.GridStorage
  {
    var v := RandomIn(vDraw, 1, 2);
    var x := RandomIn(xDraw, 0, NewW) as nat;
    var y := RandomIn(yDraw, 0, NewH) as nat;
    var i := Index(x, y, NewW);
    if i < Config.GridStorage then Placed(seq(Config.GridStorage, _ => 0)[i := v])
    else Faulted(OutOfRangeWrite(i))
  }

  /** When the write lands inside the storage, the grid holds one tile. */
  lemma NewGridAsWrittenOneTile(vDraw: nat, xDraw: nat, yDraw: nat)
    requires NewGridAsWritten(vDraw, xDraw, yDraw).Placed?
    ensures var g := NewGridAsWritten(vDraw, xDraw, yDraw).grid;
            exists c :: 0 <= c < |g| && 1 <= g[c] <= 2 && forall i :: 0 <= i < |g| && i != c ==> g[i] == 0
  {
    var g := NewGridAsWritten(vDraw, xDraw, yDraw).grid;
    var c := Index(RandomIn(xDraw, 0, NewW) as nat, RandomIn(yDraw, 0, NewH) as nat, NewW);
    assert 1 <= g[c] <= 2 && forall i :: 0 <= i < |g| && i != c ==> g[i] == 0;
  }

  /** Draws of 4 for x and y put the tile at index 20 of a 16-cell grid. */
  lemma NewGridAsWrittenOverruns()
    ensures NewGridAsWritten(0, 4, 4) == Faulted(OutOfRangeWrite(20))
  {
  }

  /** A draw of 4 for x alone lands the tile in the first column of the
      next row. */
  lemma NewGridAsWrittenWraps()
    ensures NewGridAsWritten(0, 4, 0).Placed? && NewGridAsWritten(0, 4, 0).grid[Index(0, 1, NewW)] == 1
  {
  }

  /** Corrected: `x` in [0, grid_w-1] and `y` in [0, grid_h-1], as the spawn
      of `game_update` does with its `size - 1` bound.  The new grid holds
      exactly one tile, a 1 or a 2, and it lies inside the grid. */
  function NewGrid(vDraw: nat, xDraw: nat, yDraw: nat): (g: seq<int>)
    ensures |g| == NewW * NewH && Tiles(g)
    ensures exists c :: 0 <= c < |g| && 1 <= g[c] <= 2 && forall i :: 0 <= i < |g| && i != c ==> g[i] == 0
  {
    var v := RandomIn(vDraw, 1, 2);
    var x := RandomIn(xDraw, 0, NewW - 1) as nat;
    var y := RandomIn(yDraw, 0, NewH - 1) as nat;
    var c := Index(x, y, NewW);
    GridFitsStorage(NewW, NewH, x, y);
    var g := seq(NewW * NewH, _ => 0)[c := v];
    assert 1 <= g[c] <= 2 && forall i :: 0 <= i < |g| && i != c ==> g[i] == 0;
    g
  }

  /** The game state `game_new` leaves as written: no key down, drawing
      on, and the grid of `NewGridAsWritten`; None when that grid's write
      lands outside the storage. */
  function NewGameAsWritten(vDraw: nat, xDraw: nat, yDraw: nat): (r: Option<Game>)
    ensures r.None? <==> yDraw % 5 == 4 || (xDraw % 5 == 4 && yDraw % 5 == 3)
    ensures r.Some? ==> r.value.doDraw && |r.value.grid| == r.value.gridW * r.value.gridH == Config.GridStorage
    ensures r.Some? ==> forall d :: r.value.keys.Get(d) == KeyState(false, false)
    ensures r.Some? ==> var g := r.value.grid;
              exists c :: 0 <= c < |g| && 1 <= g[c] <= 2 && forall i :: 0 <= i < |g| && i != c ==> g[i] == 0
  {
    var up := KeyState(false, false);
    match NewGridAsWritten(vDraw, xDraw, yDraw)
    case Faulted(_) => None
    case Placed(g) =>
      NewGridAsWrittenOneTile(vDraw, xDraw, yDraw);
      Some(Game(NewW, NewH, g, Keys(up, up, up, up), true))
  }

  /** The corrected `game_new`: as written, but with the grid of
      `NewGrid`, so it always succeeds with exactly one tile. */
  function NewGame(vDraw: nat, xDraw: nat, yDraw: nat): (game: Game)
    ensures |game.grid| == game.gridW * game.gridH <= Config.GridStorage
    ensures forall d :: game.keys.Get(d) == KeyState(false, false)
    ensures game.doDraw
    ensures var g := game.grid;
            exists c :: 0 <= c < |g| && 1 <= g[c] <= 2 && forall i :: 0 <= i < |g| && i != c ==> g[i] == 0
    ensures var w := NewGameAsWritten(vDraw, xDraw, yDraw); w.Some? ==> w.value.(grid := game.grid) == game
  {
    var up := KeyState(false, false);
    Game(NewW, NewH, NewGrid(vDraw, xDraw, yDraw), Keys(up, up, up, up), true)
  }

}

=== FILE: grid.dfy ===
/** The slide-and-merge move of `game_update` (code/main.cc:777-871).

    The grid is a row-major sequence of `w*h` exponents, 0 meaning empty.
    All four directions are the same sweep seen through a change of
    coordinates: a move splits the grid into independent LINES (rows for a
    horizontal move, columns for a vertical one) and numbers the cells of a
    line by their distance from the wall the tiles move toward.  `Cell`
    turns (line, position) back into a grid index, so the position-0 cell
    of a row is column 0 for a left move and column w-1 for a right move.

    `Sweep` is the reference semantics of one line; `MoveTiles` performs the
    source's loops in the source's order over the whole grid and is proved
    to agree with `Sweep` on every line. */
module Grid {

  datatype Dir = Left | Right | Up | Down

  predicate Horizontal(d: Dir)
  {
    d.Left? || d.Right?
  }

  /** Number of independent lines a move in direction d works on. */
  function LineCount(d: Dir, w: nat, h: nat): nat
  {
    if Horizontal(d) then h else w
  }

  /** Number of cells in each of those lines. */
  function LineLen(d: Dir, w: nat, h: nat): nat
  {
    if Horizontal(d) then w else h
  }

  /** The source's `grid[x + grid_w*y]`. */
  function Index(x: nat, y: nat, w: nat): nat
  {
    x + w * y
  }

  lemma MulMono(a: nat, b: nat, c: nat)
    requires b <= c
    ensures a * b <= a * c
  {
  }

  lemma IndexBound(x: nat, y: nat, w: nat, h: nat)
    requires x < w && y < h
    ensures Index(x, y, w) < w * h
  {
    MulMono(w, y + 1, h);
  }

  lemma IndexInjective(x: nat, y: nat, x': nat, y': nat, w: nat)
    requires x < w && x' < w
    requires Index(x, y, w) == Index(x', y', w)
    ensures x == x' && y == y'
  {
    if y < y' {
      MulMono(w, y + 1, y');
    } else if y' < y {
      MulMono(w, y' + 1, y);
    }
  }

  /** Column and row of the cell at distance k from the wall on line j. */
  function CellXY(d: Dir, w: nat, h: nat, j: nat, k: nat): (xy: (nat, nat))
    requires j < LineCount(d, w, h) && k < LineLen(d, w, h)
    ensures xy.0 < w && xy.1 < h
  {
    match d
    case Left => (k, j)
    case Right => (w - 1 - k, j)
    case Up => (j, k)
    case Down => (j, h - 1 - k)
  }

  function Cell(d: Dir, w: nat, h: nat, j: nat, k: nat): (i: nat)
    requires j < LineCount(d, w, h) && k < LineLen(d, w, h)
    ensures i < w * h
  {
    var xy := CellXY(d, w, h, j, k);
    IndexBound(xy.0, xy.1, w, h);
    Index(xy.0, xy.1, w)
  }

  /** Distinct (line, position) pairs name distinct grid cells, so lines
      never share a cell. */
  lemma CellInjective(d: Dir, w: nat, h: nat, j: nat, k: nat, j': nat, k': nat)
    requires j < LineCount(d, w, h) && k < LineLen(d, w, h)
    requires j' < LineCount(d, w, h) && k' < LineLen(d, w, h)
    requires Cell(d, w, h, j, k) == Cell(d, w, h, j', k')
    ensures j == j' && k == k'
  {
    var xy := CellXY(d, w, h, j, k);
    var xy' := CellXY(d, w, h, j', k');
    IndexInjective(xy.0, xy.1, xy'.0, xy'.1, w);
  }

  /** Every grid cell lies on some line. */
  lemma CellSurjective(d: Dir, w: nat, h: nat, i: nat)
    requires i < w * h
    ensures exists j: nat, k: nat :: j < LineCount(d, w, h) && k < LineLen(d, w, h) && Cell(d, w, h, j, k) == i
  {
    var x, y := i % w, i / w;
    assert i == x + w * y;
    if y >= h {
      MulMono(w, h, y);
      assert false;
    }
    match d
    case Left => assert Cell(d, w, h, y, x) == i;
    case Right => assert Cell(d, w, h, y, w - 1 - x) == i;
    case Up => assert Cell(d, w, h, x, y) == i;
    case Down => assert Cell(d, w, h, x, h - 1 - y) == i;
  }

  /** The values on line j, nearest the wall first. */
  function Line(g: seq<int>, d: Dir, w: nat, h: nat, j: nat): (line: seq<int>)
    requires |g| == w * h && j < LineCount(d, w, h)
    ensures |line| == LineLen(d, w, h)
  {
    seq(LineLen(d, w, h), k requires 0 <= k < LineLen(d, w, h) => g[Cell(d, w, h, j, k)])
  }

  /** Writing one cell changes exactly one position of one line. */
  lemma LinesAfterWrite(g: seq<int>, d: Dir, w: nat, h: nat, j: nat, k: nat, v: int)
    requires |g| == w * h && j < LineCount(d, w, h) && k < LineLen(d, w, h)
    ensures |g[Cell(d, w, h, j, k) := v]| == w * h
    ensures Line(g[Cell(d, w, h, j, k) := v], d, w, h, j) == Line(g, d, w, h, j)[k := v]
    ensures forall j' :: 0 <= j' < LineCount(d, w, h) && j' != j ==>
              Line(g[Cell(d, w, h, j, k) := v], d, w, h, j') == Line(g, d, w, h, j')
  {
    var g' := g[Cell(d, w, h, j, k) := v];
    forall j', k' | 0 <= j' < LineCount(d, w, h) && 0 <= k' < LineLen(d, w, h)
      ensures g'[Cell(d, w, h, j', k')] == if j' == j && k' == k then v else g[Cell(d, w, h, j', k')]
    {
      if Cell(d, w, h, j', k') == Cell(d, w, h, j, k) {
        CellInjective(d, w, h, j', k', j, k);
      }
    }
  }

  /** Two grids with equal lines are equal. */
  lemma GridFromLines(a: seq<int>, b: seq<int>, d: Dir, w: nat, h: nat)
    requires |a| == w * h && |b| == w * h
    requires forall j :: 0 <= j < LineCount(d, w, h) ==> Line(a, d, w, h, j) == Line(b, d, w, h, j)
    ensures a == b
  {
    forall i | 0 <= i < w * h
      ensures a[i] == b[i]
    {
      CellSurjective(d, w, h, i);
      var j: nat, k: nat :| j < LineCount(d, w, h) && k < LineLen(d, w, h) && Cell(d, w, h, j, k) == i;
      assert Line(a, d, w, h, j)[k] == Line(b, d, w, h, j)[k];
    }
  }

  // ---------------------------------------------------------------------
  // One line

  /** Outcome of sliding: the new line, whether any tile moved or merged
      (the source's `moved`), and how many merges happened. */
  datatype Slid = Slid(line: seq<int>, moved: bool, merges: nat)

  /** The innermost collision loop: the tile at position p > 0 looks at
      p-1; an empty cell takes the tile and the search continues, an equal
      tile absorbs it as v+1 and the search stops, anything else stops it. */
  function Slide(line: seq<int>, p: nat): (r: Slid)
    requires p < |line|
    ensures |r.line| == |line|
    ensures r.merges <= 1
    ensures forall i :: p < i < |line| ==> r.line[i] == line[i]
    ensures !r.moved ==> r.line == line && r.merges == 0
    decreases p
  {
    if p == 0 then Slid(line, false, 0)
    else if line[p - 1] == 0 then
      var r := Slide(line[p - 1 := line[p]][p := 0], p - 1);
      Slid(r.line, true, r.merges)
    else if line[p - 1] == line[p] then
      Slid(line[p - 1 := line[p - 1] + 1][p := 0], true, 1)
    else
      Slid(line, false, 0)
  }

  /** The body of the middle loop: empty cells are skipped (`continue`). */
  function Step(line: seq<int>, k: nat): (r: Slid)
    requires k < |line|
    ensures |r.line| == |line| && r.merges <= 1
    ensures forall i :: k < i < |line| ==> r.line[i] == line[i]
    ensures !r.moved ==> r.line == line && r.merges == 0
  {
    if line[k] == 0 then Slid(line, false, 0) else Slide(line, k)
  }

  /** Positions 0 .. n-1 processed in increasing distance from the wall. */
  function Sweep(line: seq<int>, n: nat): (r: Slid)
    requires n <= |line|
    ensures |r.line| == |line|
    ensures forall i :: n <= i < |line| ==> r.line[i] == line[i]
  {
    if n == 0 then Slid(line, false, 0)
    else
      var r := Sweep(line, n - 1);
      var s := Step(r.line, n - 1);
      Slid(s.line, r.moved || s.moved, r.merges + s.merges)
  }

  function MoveLine(line: seq<int>): (r: Slid)
    ensures |r.line| == |line|
    ensures !r.moved ==> r.line == line
  {
    SweepStill(line, |line|);
    Sweep(line, |line|)
  }

  /** Moving a line of tiles keeps it a line of tiles of the same weight,
      with one tile fewer per merge. */
  lemma MoveLineConserves(line: seq<int>)
    requires Tiles(line)
    ensures Tiles(MoveLine(line).line)
    ensures Weight(MoveLine(line).line) == Weight(line)
    ensures Occupied(MoveLine(line).line) + MoveLine(line).merges == Occupied(line)
  {
    SweepConserves(line, |line|);
  }

  lemma SweepOne(line: seq<int>)
    requires 1 <= |line|
    ensures Sweep(line, 1) == Slid(line, false, 0)
  {
  }

  // ---------------------------------------------------------------------
  // Properties of one line

  /** Every value is an exponent or 0. */
  predicate Tiles(s: seq<int>)
  {
    forall i :: 0 <= i < |s| ==> s[i] >= 0
  }

  lemma TilesAfterWrite(s: seq<int>, i: nat, v: int)
    requires Tiles(s) && i < |s| && v >= 0
    ensures Tiles(s[i := v])
  {
  }

  /** Among the first n cells, no tile sits beyond an empty cell. */
  predicate PackedBelow(s: seq<int>, n: nat)
    requires n <= |s|
  {
    forall a, b :: 0 <= a < b < n && s[a] == 0 ==> s[b] == 0
  }

  lemma {:induction false} SlidePacks(line: seq<int>, p: nat)
    requires p < |line| && Tiles(line) && line[p] != 0
    requires PackedBelow(line, p)
    ensures Tiles(Slide(line, p).line)
    ensures PackedBelow(Slide(line, p).line, p + 1)
    decreases p
  {
    if p == 0 {
    } else if line[p - 1] == 0 {
      var l' := line[p - 1 := line[p]][p := 0];
      assert PackedBelow(l', p - 1) by {
        assert forall i :: 0 <= i < p - 1 ==> l'[i] == line[i];
      }
      SlidePacks(l', p - 1);
      var r := Slide(l', p - 1);
      assert r.line[p] == 0;
    } else if line[p - 1] == line[p] {
      var r := Slide(line, p).line;
      assert forall i :: 0 <= i < p - 1 ==> r[i] == line[i];
      assert forall i :: 0 <= i < p ==> line[i] != 0;
    } else {
      assert forall i :: 0 <= i < p ==> line[i] != 0;
    }
  }

  lemma {:induction false} SweepPacks(line: seq<int>, n: nat)
    requires n <= |line| && Tiles(line)
    ensures Tiles(Sweep(line, n).line)
    ensures PackedBelow(Sweep(line, n).line, n)
  {
    if n > 0 {
      SweepPacks(line, n - 1);
      var l := Sweep(line, n - 1).line;
      if l[n - 1] != 0 {
        SlidePacks(l, n - 1);
      } else {
        assert PackedBelow(l, n);
      }
    }
  }

  /** After a move every line's tiles form an unbroken run starting at the
      wall. */
  lemma MoveLinePacks(line: seq<int>)
    requires Tiles(line)
    ensures Tiles(MoveLine(line).line)
    ensures PackedBelow(MoveLine(line).line, |line|)
  {
    SweepPacks(line, |line|);
  }

  function Pow2(n: nat): nat
  {
    if n == 0 then 1 else 2 * Pow2(n - 1)
  }

  /** A tile of exponent v stands for the number 2^v; an empty cell for 0. */
  function TileWeight(v: int): nat
  {
    if v <= 0 then 0 else Pow2(v as nat)
  }

  function Occupancy(v: int): nat
  {
    if v == 0 then 0 else 1
  }

  function Total(s: seq<int>, f: int -> nat): nat
  {
    if |s| == 0 then 0 else Total(s[..|s| - 1], f) + f(s[|s| - 1])
  }

  lemma {:induction false} TotalUpdate(s: seq<int>, f: int -> nat, i: nat, v: int)
    requires i < |s|
    ensures Total(s[i := v], f) + f(s[i]) == Total(s, f) + f(v)
    decreases |s|
  {
    var n := |s| - 1;
    assert s[i := v][..n] == if i == n then s[..n] else s[..n][i := v];
    if i < n {
      TotalUpdate(s[..n], f, i, v);
    }
  }

  /** Two writes to different cells change a total by what they put in
      less what they take out. */
  lemma TotalTwoWrites(s: seq<int>, f: int -> nat, a: nat, b: nat, x: int, y: int)
    requires a < |s| && b < |s| && a != b
    ensures Total(s[a := x][b := y], f) + f(s[a]) + f(s[b]) == Total(s, f) + f(x) + f(y)
  {
    TotalUpdate(s, f, a, x);
    TotalUpdate(s[a := x], f, b, y);
  }

  /** The sum of 2^v over the tiles of a line (the score it represents). */
  function Weight(s: seq<int>): nat
  {
    Total(s, TileWeight)
  }

  /** Number of occupied cells. */
  function Occupied(s: seq<int>): nat
  {
    Total(s, Occupancy)
  }

  lemma {:induction false} SlideConserves(line: seq<int>, p: nat)
    requires p < |line| && Tiles(line) && line[p] != 0
    ensures Weight(Slide(line, p).line) == Weight(line)
    ensures Occupied(Slide(line, p).line) + Slide(line, p).merges == Occupied(line)
    ensures Tiles(Slide(line, p).line)
    decreases p
  {
    var v := line[p];
    if p == 0 {
    } else if line[p - 1] == 0 {
      var l' := line[p - 1 := v][p := 0];
      ShiftConserves(line, p);
      SlideConserves(l', p - 1);
    } else if line[p - 1] == v {
      MergeConserves(line, p);
    }
  }

  /** A shift into an empty neighbour moves one tile and nothing else. */
  lemma ShiftConserves(line: seq<int>, p: nat)
    requires 0 < p < |line| && Tiles(line) && line[p] != 0 && line[p - 1] == 0
    ensures Weight(line[p - 1 := line[p]][p := 0]) == Weight(line)
    ensures Occupied(line[p - 1 := line[p]][p := 0]) == Occupied(line)
    ensures Tiles(line[p - 1 := line[p]][p := 0]) && line[p - 1 := line[p]][p := 0][p - 1] != 0
  {
    var v := line[p];
    TilesAfterWrite(line, p - 1, v);
    TilesAfterWrite(line[p - 1 := v], p, 0);
    TotalTwoWrites(line, TileWeight, p - 1, p, v, 0);
    TotalTwoWrites(line, Occupancy, p - 1, p, v, 0);
  }

  /** A merge doubles one tile and empties its neighbour. */
  lemma MergeConserves(line: seq<int>, p: nat)
    requires 0 < p < |line| && Tiles(line) && line[p] != 0 && line[p - 1] == line[p]
    ensures Weight(line[p - 1 := line[p] + 1][p := 0]) == Weight(line)
    ensures Occupied(line[p - 1 := line[p] + 1][p := 0]) + 1 == Occupied(line)
    ensures Tiles(line[p - 1 := line[p] + 1][p := 0])
  {
    var v := line[p];
    TotalTwoWrites(line, TileWeight, p - 1, p, v + 1, 0);
    TotalTwoWrites(line, Occupancy, p - 1, p, v + 1, 0);
    assert TileWeight(v + 1) == 2 * TileWeight(v);
  }

  /** The slide phase preserves the sum of 2^v over the tiles of a line and
      lowers its tile count by exactly the number of merges. */
  lemma {:induction false} SweepConserves(line: seq<int>, n: nat)
    requires n <= |line| && Tiles(line)
    ensures Weight(Sweep(line, n).line) == Weight(line)
    ensures Occupied(Sweep(line, n).line) + Sweep(line, n).merges == Occupied(line)
    ensures Tiles(Sweep(line, n).line)
  {
    if n > 0 {
      SweepConserves(line, n - 1);
      var l := Sweep(line, n - 1).line;
      if l[n - 1] != 0 {
        SlideConserves(l, n - 1);
      }
    }
  }

  /** A sweep that reports no movement left the line as it was. */
  lemma {:induction false} SweepStill(line: seq<int>, n: nat)
    requires n <= |line|
    ensures !Sweep(line, n).moved ==> Sweep(line, n).line == line
  {
    if n > 0 {
      SweepStill(line, n - 1);
    }
  }

  /** There is no "already merged" mark: [1,1,2,0] moved toward position 0
      first merges the two 1s into a 2, which then absorbs the other 2. */
  lemma CascadeExample()
    ensures MoveLine([1, 1, 2, 0]) == Slid([3, 0, 0, 0], true, 2)
  {
    var l0 := [1, 1, 2, 0];
    assert Sweep(l0, 1) == Slid(l0, false, 0);
    assert Slide(l0, 1) == Slid([2, 0, 2, 0], true, 1);
    assert Sweep(l0, 2) == Slid([2, 0, 2, 0], true, 1);
    assert Slide([2, 0, 0, 0][1 := 2][2 := 0], 1) == Slid([3, 0, 0, 0], true, 1);
    assert Slide([2, 0, 2, 0], 2) == Slid([3, 0, 0, 0], true, 1);
    assert Sweep(l0, 3) == Slid([3, 0, 0, 0], true, 2);
  }

  // ---------------------------------------------------------------------
  // The whole grid, in the source's loop order

  /** One step of the innermost loop writes `a` into the collision cell
      p - 1 and empties the tile's cell p, on line j alone. */
  lemma PairWrite(g: seq<int>, d: Dir, w: nat, h: nat, j: nat, p: nat, a: int)
    requires |g| == w * h && j < LineCount(d, w, h) && 0 < p < LineLen(d, w, h)
    ensures |g[Cell(d, w, h, j, p - 1) := a][Cell(d, w, h, j, p) := 0]| == w * h
    ensures Line(g[Cell(d, w, h, j, p - 1) := a][Cell(d, w, h, j, p) := 0], d, w, h, j)
              == Line(g, d, w, h, j)[p - 1 := a][p := 0]
    ensures forall j' :: 0 <= j' < LineCount(d, w, h) && j' != j ==>
              Line(g[Cell(d, w, h, j, p - 1) := a][Cell(d, w, h, j, p) := 0], d, w, h, j') == Line(g, d, w, h, j')
  {
    LinesAfterWrite(g, d, w, h, j, p - 1, a);
    LinesAfterWrite(g[Cell(d, w, h, j, p - 1) := a], d, w, h, j, p, 0);
  }

  /** True when the move changes some line (the source's `moved`). */
  predicate AnyLineMoved(g: seq<int>, d: Dir, w: nat, h: nat)
    requires |g| == w * h
  {
    exists j :: 0 <= j < LineCount(d, w, h) && MoveLine(Line(g, d, w, h, j)).moved
  }

  /** One iteration of the middle loop: the tile at position k of line j
      (pointer `v`) slides toward the wall through the innermost loop. */
  method SlideTile(g0: seq<int>, d: Dir, w: nat, h: nat, j: nat, k: nat) returns (g: seq<int>, moved: bool)
    requires |g0| == w * h && j < LineCount(d, w, h) && k < LineLen(d, w, h)
    ensures |g| == w * h
    ensures Line(g, d, w, h, j) == Step(Line(g0, d, w, h, j), k).line
    ensures moved == Step(Line(g0, d, w, h, j), k).moved
    ensures forall j' :: 0 <= j' < LineCount(d, w, h) && j' != j ==> Line(g, d, w, h, j') == Line(g0, d, w, h, j')
  {
    g := g0;
    moved := false;
    var v := Cell(d, w, h, j, k);
    if g[v] == 0 {
      return;
    }
    ghost var target := Slide(Line(g0, d, w, h, j), k);
    var p: nat := k;  // the tile's position; the cell it collides with is p - 1
    while p > 0
      invariant p <= k && |g| == w * h
      invariant v == Cell(d, w, h, j, p) && g[v] != 0
      invariant Slide(Line(g, d, w, h, j), p).line == target.line
      invariant (moved || Slide(Line(g, d, w, h, j), p).moved) == target.moved
      invariant forall j' :: 0 <= j' < LineCount(d, w, h) && j' != j ==> Line(g, d, w, h, j') == Line(g0, d, w, h, j')
    {
      var stop, stepMoved;
      g, stop, stepMoved := SlideStep(g, d, w, h, j, p);
      moved := moved || stepMoved;
      if stop {
        break;
      }
      p := p - 1;
      v := Cell(d, w, h, j, p);
    }
  }

  /** One iteration of the innermost loop: the tile at position p meets the
      cell at p - 1 and moves into it when empty (the tile goes on), merges
      with it when equal, or stops. */
  method SlideStep(g: seq<int>, d: Dir, w: nat, h: nat, j: nat, p: nat) returns (g': seq<int>, stop: bool, moved: bool)
    requires |g| == w * h && j < LineCount(d, w, h) && 0 < p < LineLen(d, w, h)
    requires g[Cell(d, w, h, j, p)] != 0
    ensures |g'| == w * h
    ensures stop ==> Line(g', d, w, h, j) == Slide(Line(g, d, w, h, j), p).line
                     && moved == Slide(Line(g, d, w, h, j), p).moved
    ensures !stop ==> moved && g'[Cell(d, w, h, j, p - 1)] != 0
                      && Slide(Line(g', d, w, h, j), p - 1).line == Slide(Line(g, d, w, h, j), p).line
                      && Slide(Line(g, d, w, h, j), p).moved
    ensures forall j' :: 0 <= j' < LineCount(d, w, h) && j' != j ==> Line(g', d, w, h, j') == Line(g, d, w, h, j')
  {
    var v := Cell(d, w, h, j, p);
    var coll := Cell(d, w, h, j, p - 1);
    if g[coll] == 0 {
      PairWrite(g, d, w, h, j, p, g[v]);
      g' := g[coll := g[v]][v := 0];
      stop, moved := false, true;
    } else if g[coll] == g[v] {
      PairWrite(g, d, w, h, j, p, g[coll] + 1);
      g' := g[coll := g[coll] + 1][v := 0];
      stop, moved := true, true;
    } else {
      g' := g;
      stop, moved := true, false;
    }
  }

  /** One pass of the middle loop: the tile at position k of every line,
      lines taken in order. */
  method SlideLevel(g0: seq<int>, d: Dir, w: nat, h: nat, k: nat) returns (g: seq<int>, moved: bool)
    requires |g0| == w * h && k < LineLen(d, w, h)
    ensures |g| == w * h
    ensures forall j :: 0 <= j < LineCount(d, w, h) ==> Line(g, d, w, h, j) == Step(Line(g0, d, w, h, j), k).line
    ensures moved <==> exists j :: 0 <= j < LineCount(d, w, h) && Step(Line(g0, d, w, h, j), k).moved
  {
    var lines := LineCount(d, w, h);
    g := g0;
    moved := false;
    var j := 0;
    while j < lines
      invariant j <= lines && |g| == w * h
      invariant forall j' :: 0 <= j' < lines ==>
                  Line(g, d, w, h, j') == if j' < j then Step(Line(g0, d, w, h, j'), k).line else Line(g0, d, w, h, j')
      invariant moved <==> exists j' :: 0 <= j' < j && Step(Line(g0, d, w, h, j'), k).moved
    {
      var tileMoved;
      g, tileMoved := SlideTile(g, d, w, h, j, k);
      moved := moved || tileMoved;
      j := j + 1;
    }
  }

  /** The move loops of `game_update`: positions outward from the wall (the
      source's outer loop, starting at 0 for up and 1 otherwise), lines in
      order (middle loop), each tile slid by `SlideTile`.  Every line ends up
      exactly as the per-line reference `MoveLine` says, whatever the
      interleaving of lines. */
  method MoveTiles(g0: seq<int>, d: Dir, w: nat, h: nat) returns (g: seq<int>, moved: bool)
    requires |g0| == w * h
    ensures |g| == w * h
    ensures forall j :: 0 <= j < LineCount(d, w, h) ==> Line(g, d, w, h, j) == MoveLine(Line(g0, d, w, h, j)).line
    ensures moved == AnyLineMoved(g0, d, w, h)
    ensures Tiles(g0) ==> Weight(g) == Weight(g0)
    ensures Tiles(g0) ==> Occupied(g) + MoveMerges(g0, d, w, h) == Occupied(g0)
  {
    var n := LineLen(d, w, h);
    // the outer loop starts at 0 for up and 1 otherwise; lines of no
    // cells give the source's loops empty ranges
    var k := if d.Up? || n == 0 then 0 else 1;
    SweepStart(g0, d, w, h, k);
    g, moved := MoveLevels(g0, d, w, h, k);
    SweptAll(g0, g, moved, d, w, h);
    if Tiles(g0) {
      MoveConserves(g0, g, d, w, h);
    }
  }

  /** The outer loop from position k on. */
  method MoveLevels(g0: seq<int>, d: Dir, w: nat, h: nat, k0: nat) returns (g: seq<int>, moved: bool)
    requires |g0| == w * h && k0 <= LineLen(d, w, h)
    requires SweptTo(g0, g0, false, d, w, h, k0)
    ensures |g| == w * h
    ensures SweptTo(g0, g, moved, d, w, h, LineLen(d, w, h))
  {
    var n := LineLen(d, w, h);
    g, moved := g0, false;
    var k := k0;
    while k < n
      invariant k <= n && |g| == w * h
      invariant SweptTo(g0, g, moved, d, w, h, k)
    {
      g, moved, k := MoveLevel(g0, g, moved, d, w, h, k);
    }
  }

  /** One iteration of the outer loop: every line advances by one position
      of its sweep. */
  method MoveLevel(g0: seq<int>, g: seq<int>, moved: bool, d: Dir, w: nat, h: nat, k: nat)
    returns (g': seq<int>, moved': bool, k': nat)
    requires |g0| == w * h && |g| == w * h && k < LineLen(d, w, h)
    requires SweptTo(g0, g, moved, d, w, h, k)
    ensures |g'| == w * h && k' == k + 1
    ensures SweptTo(g0, g', moved', d, w, h, k')
  {
    var levelMoved;
    g', levelMoved := SlideLevel(g, d, w, h, k);
    NextLevel(g0, g, moved, g', levelMoved, d, w, h, k);
    moved' := moved || levelMoved;
    k' := k + 1;
  }

  /** Once every position is processed, each line is its reference move. */
  lemma SweptAll(g0: seq<int>, g: seq<int>, moved: bool, d: Dir, w: nat, h: nat)
    requires |g0| == w * h && |g| == w * h
    requires SweptTo(g0, g, moved, d, w, h, LineLen(d, w, h))
    ensures forall j :: 0 <= j < LineCount(d, w, h) ==> Line(g, d, w, h, j) == MoveLine(Line(g0, d, w, h, j)).line
    ensures moved == AnyLineMoved(g0, d, w, h)
  {
  }

  /** The loop invariant of `MoveTiles`: after positions 0 .. k-1, every
      line is the sweep of those positions, and `moved` says whether the
      sweep of some line moved. */
  ghost predicate SweptTo(g0: seq<int>, g: seq<int>, moved: bool, d: Dir, w: nat, h: nat, k: nat)
    requires |g0| == w * h && |g| == w * h && k <= LineLen(d, w, h)
  {
    && (forall j :: 0 <= j < LineCount(d, w, h) ==> Line(g, d, w, h, j) == Sweep(Line(g0, d, w, h, j), k).line)
    && (moved <==> exists j :: 0 <= j < LineCount(d, w, h) && Sweep(Line(g0, d, w, h, j), k).moved)
  }

  /** Position 0 never moves, so starting the outer loop at 0 or at 1 is
      the same. */
  lemma SweepStart(g0: seq<int>, d: Dir, w: nat, h: nat, k: nat)
    requires |g0| == w * h && k <= 1 && k <= LineLen(d, w, h)
    ensures SweptTo(g0, g0, false, d, w, h, k)
  {
    forall j | 0 <= j < LineCount(d, w, h)
      ensures Sweep(Line(g0, d, w, h, j), k) == Slid(Line(g0, d, w, h, j), false, 0)
    {
      if k == 1 {
        SweepOne(Line(g0, d, w, h, j));
      }
    }
  }

  /** One more level of the outer loop is one more position of `Sweep` on
      every line. */
  lemma NextLevel(g0: seq<int>, g: seq<int>, moved: bool, g': seq<int>, levelMoved: bool, d: Dir, w: nat, h: nat, k: nat)
    requires |g0| == w * h && |g| == w * h && |g'| == w * h && k < LineLen(d, w, h)
    requires SweptTo(g0, g, moved, d, w, h, k)
    requires forall j :: 0 <= j < LineCount(d, w, h) ==> Line(g', d, w, h, j) == Step(Line(g, d, w, h, j), k).line
    requires levelMoved <==> exists j :: 0 <= j < LineCount(d, w, h) && Step(Line(g, d, w, h, j), k).moved
    ensures SweptTo(g0, g', moved || levelMoved, d, w, h, k + 1)
  {
    forall j | 0 <= j < LineCount(d, w, h)
      ensures Sweep(Line(g0, d, w, h, j), k + 1).line == Step(Line(g, d, w, h, j), k).line
      ensures Sweep(Line(g0, d, w, h, j), k + 1).moved == (Sweep(Line(g0, d, w, h, j), k).moved || Step(Line(g, d, w, h, j), k).moved)
    {
    }
  }

  /** The move changes nothing when it reports no movement. */
  lemma StillGridUnchanged(g0: seq<int>, g: seq<int>, d: Dir, w: nat, h: nat)
    requires |g0| == w * h && |g| == w * h
    requires forall j :: 0 <= j < LineCount(d, w, h) ==> Line(g, d, w, h, j) == MoveLine(Line(g0, d, w, h, j)).line
    requires !AnyLineMoved(g0, d, w, h)
    ensures g == g0
  {
    forall j | 0 <= j < LineCount(d, w, h)
      ensures Line(g, d, w, h, j) == Line(g0, d, w, h, j)
    {
      SweepStill(Line(g0, d, w, h, j), LineLen(d, w, h));
    }
    GridFromLines(g, g0, d, w, h);
  }

  // ---------------------------------------------------------------------
  // Conservation over the whole grid

  /** The total of f over lines 0 .. n-1. */
  function LinesTotal(g: seq<int>, d: Dir, w: nat, h: nat, f: int -> nat, n: nat): nat
    requires |g| == w * h && n <= LineCount(d, w, h)
  {
    if n == 0 then 0 else LinesTotal(g, d, w, h, f, n - 1) + Total(Line(g, d, w, h, n - 1), f)
  }

  /** Writing one cell changes the line totals as it changes the cell. */
  lemma {:induction false} LinesTotalUpdate(g: seq<int>, d: Dir, w: nat, h: nat, f: int -> nat, n: nat, j: nat, k: nat, v: int)
    requires |g| == w * h && n <= LineCount(d, w, h) && j < LineCount(d, w, h) && k < LineLen(d, w, h)
    ensures |g[Cell(d, w, h, j, k) := v]| == w * h
    ensures LinesTotal(g[Cell(d, w, h, j, k) := v], d, w, h, f, n) + (if j < n then f(g[Cell(d, w, h, j, k)]) else 0)
            == LinesTotal(g, d, w, h, f, n) + (if j < n then f(v) else 0)
  {
    var c := Cell(d, w, h, j, k);
    var g' := g[c := v];
    if n > 0 {
      LinesTotalUpdate(g, d, w, h, f, n - 1, j, k, v);
      LinesAfterWrite(g, d, w, h, j, k, v);
      var last', last := Total(Line(g', d, w, h, n - 1), f), Total(Line(g, d, w, h, n - 1), f);
      assert LinesTotal(g', d, w, h, f, n) == LinesTotal(g', d, w, h, f, n - 1) + last';
      assert LinesTotal(g, d, w, h, f, n) == LinesTotal(g, d, w, h, f, n - 1) + last;
      if n - 1 == j {
        TotalUpdate(Line(g, d, w, h, j), f, k, v);
        assert Line(g, d, w, h, j)[k] == g[c];
        assert last' + f(g[c]) == last + f(v);
      } else {
        assert last' == last;
      }
    }
  }

  /** The first i cells of g, the rest empty. */
  ghost function Filled(g: seq<int>, i: nat): (z: seq<int>)
    requires i <= |g|
    ensures |z| == |g|
  {
    g[..i] + seq(|g| - i, _ => 0)
  }

  lemma {:induction false} TotalOfEmpty(s: seq<int>, f: int -> nat)
    requires f(0) == 0 && forall i :: 0 <= i < |s| ==> s[i] == 0
    ensures Total(s, f) == 0
    decreases |s|
  {
    if |s| > 0 {
      TotalOfEmpty(s[..|s| - 1], f);
    }
  }

  lemma {:induction false} LinesTotalOfEmpty(g: seq<int>, d: Dir, w: nat, h: nat, f: int -> nat, n: nat)
    requires |g| == w * h && n <= LineCount(d, w, h)
    requires f(0) == 0 && forall i :: 0 <= i < |g| ==> g[i] == 0
    ensures LinesTotal(g, d, w, h, f, n) == 0
  {
    if n > 0 {
      LinesTotalOfEmpty(g, d, w, h, f, n - 1);
      TotalOfEmpty(Line(g, d, w, h, n - 1), f);
    }
  }

  lemma {:induction false} FilledAgrees(g: seq<int>, d: Dir, w: nat, h: nat, f: int -> nat, i: nat)
    requires |g| == w * h && i <= |g| && f(0) == 0
    ensures Total(Filled(g, i), f) == LinesTotal(Filled(g, i), d, w, h, f, LineCount(d, w, h))
  {
    if i == 0 {
      TotalOfEmpty(Filled(g, 0), f);
      LinesTotalOfEmpty(Filled(g, 0), d, w, h, f, LineCount(d, w, h));
    } else {
      FilledAgrees(g, d, w, h, f, i - 1);
      var z := Filled(g, i - 1);
      assert Filled(g, i) == z[i - 1 := g[i - 1]];
      TotalUpdate(z, f, i - 1, g[i - 1]);
      CellSurjective(d, w, h, i - 1);
      var j: nat, k: nat :| j < LineCount(d, w, h) && k < LineLen(d, w, h) && Cell(d, w, h, j, k) == i - 1;
      LinesTotalUpdate(z, d, w, h, f, LineCount(d, w, h), j, k, g[i - 1]);
    }
  }

  /** The lines of a direction partition the grid, so the total over the
      grid is the sum of the totals over its lines. */
  lemma GridTotalIsLinesTotal(g: seq<int>, d: Dir, w: nat, h: nat, f: int -> nat)
    requires |g| == w * h && f(0) == 0
    ensures Total(g, f) == LinesTotal(g, d, w, h, f, LineCount(d, w, h))
  {
    FilledAgrees(g, d, w, h, f, |g|);
    assert Filled(g, |g|) == g;
  }

  /** The first n numbers of xs, added up. */
  function SumTo(xs: seq<nat>, n: nat): nat
    requires n <= |xs|
  {
    if n == 0 then 0 else SumTo(xs, n - 1) + xs[n - 1]
  }

  /** The total of f over the first n of the given lines. */
  function ListTotal(ls: seq<seq<int>>, f: int -> nat, n: nat): nat
    requires n <= |ls|
  {
    if n == 0 then 0 else ListTotal(ls, f, n - 1) + Total(ls[n - 1], f)
  }

  /** Every line of g, in line order. */
  function LinesOf(g: seq<int>, d: Dir, w: nat, h: nat): (ls: seq<seq<int>>)
    requires |g| == w * h
    ensures |ls| == LineCount(d, w, h)
  {
    seq(LineCount(d, w, h), j requires 0 <= j < LineCount(d, w, h) => Line(g, d, w, h, j))
  }

  /** The merges a move performs on each line of g, in line order. */
  function LineMerges(g: seq<int>, d: Dir, w: nat, h: nat): (ms: seq<nat>)
    requires |g| == w * h
    ensures |ms| == LineCount(d, w, h)
  {
    seq(LineCount(d, w, h), j requires 0 <= j < LineCount(d, w, h) => MoveLine(Line(g, d, w, h, j)).merges)
  }

  /** Merges performed by a move over the whole grid. */
  function MoveMerges(g: seq<int>, d: Dir, w: nat, h: nat): nat
    requires |g| == w * h
  {
    SumTo(LineMerges(g, d, w, h), LineCount(d, w, h))
  }

  /** When each line of ls weighs what the same line of ls0 weighs and
      holds ms[j] tiles fewer, the same holds summed over lines. */
  lemma {:induction false} ListsConserve(ls0: seq<seq<int>>, ls: seq<seq<int>>, ms: seq<nat>, n: nat)
    requires |ls0| == |ls| == |ms| && n <= |ls|
    requires forall j :: 0 <= j < |ls| ==> Total(ls[j], TileWeight) == Total(ls0[j], TileWeight)
    requires forall j :: 0 <= j < |ls| ==> Total(ls[j], Occupancy) + ms[j] == Total(ls0[j], Occupancy)
    ensures ListTotal(ls, TileWeight, n) == ListTotal(ls0, TileWeight, n)
    ensures ListTotal(ls, Occupancy, n) + SumTo(ms, n) == ListTotal(ls0, Occupancy, n)
  {
    if n > 0 {
      ListsConserve(ls0, ls, ms, n - 1);
    }
  }

  /** A grid whose lines are ls has the totals of ls. */
  lemma {:induction false} LinesTotalIsList(g: seq<int>, ls: seq<seq<int>>, d: Dir, w: nat, h: nat, f: int -> nat, n: nat)
    requires |g| == w * h && |ls| == LineCount(d, w, h) && n <= |ls|
    requires forall j :: 0 <= j < |ls| ==> Line(g, d, w, h, j) == ls[j]
    ensures LinesTotal(g, d, w, h, f, n) == ListTotal(ls, f, n)
  {
    if n > 0 {
      LinesTotalIsList(g, ls, d, w, h, f, n - 1);
      assert Line(g, d, w, h, n - 1) == ls[n - 1];
    }
  }

  /** The lines of a grid of tiles hold tiles. */
  lemma LineTiles(g: seq<int>, d: Dir, w: nat, h: nat, j: nat)
    requires |g| == w * h && Tiles(g) && j < LineCount(d, w, h)
    ensures Tiles(Line(g, d, w, h, j))
  {
    var line := Line(g, d, w, h, j);
    forall k | 0 <= k < |line| ensures line[k] >= 0 {
      assert line[k] == g[Cell(d, w, h, j, k)];
    }
  }

  /** One moved line, stated as totals. */
  lemma MovedLineConserves(line: seq<int>)
    requires Tiles(line)
    ensures Total(MoveLine(line).line, TileWeight) == Total(line, TileWeight)
    ensures Total(MoveLine(line).line, Occupancy) + MoveLine(line).merges == Total(line, Occupancy)
  {
    MoveLineConserves(line);
  }

  /** Line j of a moved grid keeps the weight of line j of g0 and holds
      one tile fewer per merge on it. */
  lemma MovedLineAt(g0: seq<int>, g: seq<int>, d: Dir, w: nat, h: nat, j: nat)
    requires |g0| == w * h && |g| == w * h && Tiles(g0) && j < LineCount(d, w, h)
    requires Line(g, d, w, h, j) == MoveLine(Line(g0, d, w, h, j)).line
    ensures Total(LinesOf(g, d, w, h)[j], TileWeight) == Total(LinesOf(g0, d, w, h)[j], TileWeight)
    ensures Total(LinesOf(g, d, w, h)[j], Occupancy) + LineMerges(g0, d, w, h)[j] == Total(LinesOf(g0, d, w, h)[j], Occupancy)
  {
    LineTiles(g0, d, w, h, j);
    MovedLineConserves(Line(g0, d, w, h, j));
  }

  /** A whole move keeps the sum of 2^v over the grid's tiles, and the
      number of tiles drops by exactly the number of merges. */
  lemma MoveConserves(g0: seq<int>, g: seq<int>, d: Dir, w: nat, h: nat)
    requires |g0| == w * h && |g| == w * h && Tiles(g0)
    requires forall j :: 0 <= j < LineCount(d, w, h) ==> Line(g, d, w, h, j) == MoveLine(Line(g0, d, w, h, j)).line
    ensures Weight(g) == Weight(g0)
    ensures Occupied(g) + MoveMerges(g0, d, w, h) == Occupied(g0)
  {
    var ls0, ls, ms := LinesOf(g0, d, w, h), LinesOf(g, d, w, h), LineMerges(g0, d, w, h);
    forall j | 0 <= j < |ls|
      ensures Total(ls[j], TileWeight) == Total(ls0[j], TileWeight)
      ensures Total(ls[j], Occupancy) + ms[j] == Total(ls0[j], Occupancy)
    {
      MovedLineAt(g0, g, d, w, h, j);
    }
    ListsConserve(ls0, ls, ms, |ls|);
    ConservedTotals(g0, g, d, w, h);
  }

  /** The grid totals are the totals over the lists of lines. */
  lemma ConservedTotals(g0: seq<int>, g: seq<int>, d: Dir, w: nat, h: nat)
    requires |g0| == w * h && |g| == w * h
    ensures Weight(g) == ListTotal(LinesOf(g, d, w, h), TileWeight, LineCount(d, w, h))
    ensures Weight(g0) == ListTotal(LinesOf(g0, d, w, h), TileWeight, LineCount(d, w, h))
    ensures Occupied(g) == ListTotal(LinesOf(g, d, w, h), Occupancy, LineCount(d, w, h))
    ensures Occupied(g0) == ListTotal(LinesOf(g0, d, w, h), Occupancy, LineCount(d, w, h))
  {
    GridIsListTotal(g, d, w, h, TileWeight);
    GridIsListTotal(g0, d, w, h, TileWeight);
    GridIsListTotal(g, d, w, h, Occupancy);
    GridIsListTotal(g0, d, w, h, Occupancy);
  }

  /** A grid's total is the total over its list of lines. */
  lemma GridIsListTotal(g: seq<int>, d: Dir, w: nat, h: nat, f: int -> nat)
    requires |g| == w * h && f(0) == 0
    ensures Total(g, f) == ListTotal(LinesOf(g, d, w, h), f, LineCount(d, w, h))
  {
    GridTotalIsLinesTotal(g, d, w, h, f);
    LinesTotalIsList(g, LinesOf(g, d, w, h), d, w, h, f, LineCount(d, w, h));
  }
}

=== FILE: input.dfy ===
/** The event loop at the top of `game_update` (code/main.cc:672-775): the
    per-update reset of the "just pressed" flags, and the fold of the polled
    window-system events into key states, the draw flag and the update's
    output flags.  The event source itself is not modelled: an update
    receives the events it polls as a sequence. */
module Input {
  import opened Grid

  datatype Key = Arrow(dir: Dir) | Escape | OtherKey

  datatype WindowEvent =
    | Close | SizeChanged | Shown | Hidden | Minimized | Maximized | Exposed
    | OtherWindowEvent

  /** SDL_QUIT, a key press or release, a window event, or anything the loop
      ignores (text input, mouse motion and buttons). */
  datatype Event =
    | Quit
    | KeyEvent(key: Key, isDown: bool, isRepeat: bool)
    | Window(what: WindowEvent)
    | OtherEvent

  datatype KeyState = KeyState(down: bool, justDown: bool)

  /** The four `input_*_down` / `input_*_just_down` pairs of `Game`. */
  datatype Keys = Keys(left: KeyState, right: KeyState, up: KeyState, down: KeyState)
  {
    function Get(d: Dir): KeyState
    {
      match d
      case Left => left
      case Right => right
      case Up => up
      case Down => down
    }

    function Set(d: Dir, s: KeyState): (r: Keys)
      ensures r.Get(d) == s
      ensures forall d' :: d' != d ==> r.Get(d') == Get(d')
    {
      match d
      case Left => this.(left := s)
      case Right => this.(right := s)
      case Up => this.(up := s)
      case Down => this.(down := s)
    }
  }

  /** What the loop reads and writes: the key states and `do_draw` of the
      game, and the `window_resize` and `game_quit` flags of the output. */
  datatype Polled = Polled(keys: Keys, doDraw: bool, resize: bool, quit: bool)

  /** The flags `game_update` returns. */
  datatype Output = Output(gameQuit: bool, windowResize: bool, doDraw: bool)

  /** Events that set `game_quit` and leave the loop: SDL_QUIT, Escape
      pressed (repeat or not), and the window's close request. */
  predicate EndsPoll(e: Event)
  {
    e.Quit? || (e.KeyEvent? && e.isDown && e.key == Escape) || e == Window(Close)
  }

  /** A non-repeat press or release of the arrow key for d. */
  predicate Press(e: Event, d: Dir)
  {
    e.KeyEvent? && !e.isRepeat && e.key == Arrow(d)
  }

  /** One event that does not end the loop. */
  function Apply(s: Polled, e: Event): (r: Polled)
    ensures r.quit == s.quit
    ensures forall d :: !Press(e, d) ==> r.keys.Get(d) == s.keys.Get(d)
    ensures e.KeyEvent? && e.isRepeat ==> r == s
  {
    match e
    case KeyEvent(key, isDown, isRepeat) =>
      if !isRepeat && key.Arrow? then
        var prior := s.keys.Get(key.dir);
        s.(keys := s.keys.Set(key.dir, KeyState(isDown, prior.justDown || (isDown && !prior.down))))
      else s
    case Window(what) =>
      (match what
       case SizeChanged => s.(resize := true)
       case Shown => s.(doDraw := true)
       case Exposed => s.(doDraw := true)
       case Hidden => s.(doDraw := false)
       case Minimized => s.(doDraw := false)
       case _ => s)
    case _ => s
  }

  /** The `while(SDL_PollEvent(...))` loop, front to back: it is the
      reference fold over the handled events, with quit set iff some event
      ends the loop. */
  function Poll(s: Polled, events: seq<Event>): (r: Polled)
    ensures r == ApplyAll(s, Handled(events)).(quit := s.quit || exists i :: 0 <= i < |events| && EndsPoll(events[i]))
    decreases |events|
  {
    if |events| == 0 then s
    else if EndsPoll(events[0]) then s.(quit := true)
    else
      PollStep(s, events);
      Poll(Apply(s, events[0]), events[1..])
  }

  /** Handling the first event when it does not end the loop. */
  lemma PollStep(s: Polled, events: seq<Event>)
    requires |events| > 0 && !EndsPoll(events[0])
    ensures ApplyAll(s, Handled(events)) == ApplyAll(Apply(s, events[0]), Handled(events[1..]))
    ensures (exists i :: 0 <= i < |events| && EndsPoll(events[i])) <==>
            (exists i :: 0 <= i < |events[1..]| && EndsPoll(events[1..][i]))
  {
    assert Handled(events) == [events[0]] + Handled(events[1..]);
    if exists i :: 0 <= i < |events| && EndsPoll(events[i]) {
      var i :| 0 <= i < |events| && EndsPoll(events[i]);
      assert EndsPoll(events[1..][i - 1]);
    }
  }

  /** The start of an update clears every "just pressed" flag. */
  function ClearJust(keys: Keys): (r: Keys)
    ensures forall d :: r.Get(d) == KeyState(keys.Get(d).down, false)
  {
    Keys(KeyState(keys.left.down, false), KeyState(keys.right.down, false),
         KeyState(keys.up.down, false), KeyState(keys.down.down, false))
  }

  /** Event handling of one update, from the game's key states and draw
      flag: the new key states and draw flag, and the output.  On quit the
      output's draw flag stays 0 (the early return). */
  function HandleEvents(keys: Keys, doDraw: bool, events: seq<Event>): (r: (Polled, Output))
    ensures r.1.gameQuit <==> exists i :: 0 <= i < |events| && EndsPoll(events[i])
    ensures r.1.gameQuit ==> !r.1.doDraw
    ensures !r.1.gameQuit ==> r.1.doDraw == DrawAfter(doDraw, Handled(events))
    ensures r.1.windowResize <==> exists i :: 0 <= i < |Handled(events)| && Handled(events)[i] == Window(SizeChanged)
  {
    var s := Polled(ClearJust(keys), doDraw, false, false);
    ApplyAllFlags(s, Handled(events));
    var p := Poll(s, events);
    (p, if p.quit then Output(true, p.resize, false) else Output(false, p.resize, p.doDraw))
  }

  // ---------------------------------------------------------------------
  // Reference description, read from the end of the handled events

  /** The events the loop handles before one ends it. */
  function Handled(events: seq<Event>): (r: seq<Event>)
    ensures |r| <= |events|
    ensures forall i :: 0 <= i < |r| ==> r[i] == events[i] && !EndsPoll(r[i])
    ensures |r| < |events| ==> EndsPoll(events[|r|])
  {
    if |events| == 0 || EndsPoll(events[0]) then []
    else [events[0]] + Handled(events[1..])
  }

  /** Down state of arrow d after evs: the last non-repeat event for it. */
  function DownAfter(d0: bool, evs: seq<Event>, d: Dir): bool
  {
    if |evs| == 0 then d0
    else if Press(evs[|evs| - 1], d) then evs[|evs| - 1].isDown
    else DownAfter(d0, evs[..|evs| - 1], d)
  }

  /** evs[i] presses arrow d while it was up: an edge the flag records. */
  predicate Rising(d0: bool, evs: seq<Event>, i: nat, d: Dir)
    requires i < |evs|
  {
    Press(evs[i], d) && evs[i].isDown && !DownAfter(d0, evs[..i], d)
  }

  /** Draw flag after evs: the last shown/exposed (1) or hidden/minimized (0). */
  function DrawAfter(d0: bool, evs: seq<Event>): bool
  {
    if |evs| == 0 then d0
    else
      var e := evs[|evs| - 1];
      if e == Window(Shown) || e == Window(Exposed) then true
      else if e == Window(Hidden) || e == Window(Minimized) then false
      else DrawAfter(d0, evs[..|evs| - 1])
  }

  function ApplyAll(s: Polled, evs: seq<Event>): Polled
    decreases |evs|
  {
    if |evs| == 0 then s else ApplyAll(Apply(s, evs[0]), evs[1..])
  }

  lemma {:induction false} ApplyAllSnoc(s: Polled, evs: seq<Event>, e: Event)
    ensures ApplyAll(s, evs + [e]) == Apply(ApplyAll(s, evs), e)
    decreases |evs|
  {
    if |evs| > 0 {
      assert (evs + [e])[1..] == evs[1..] + [e];
      ApplyAllSnoc(Apply(s, evs[0]), evs[1..], e);
    }
  }

  lemma {:induction false} ApplyAllKeys(s: Polled, evs: seq<Event>, d: Dir)
    ensures ApplyAll(s, evs).keys.Get(d).down == DownAfter(s.keys.Get(d).down, evs, d)
    ensures ApplyAll(s, evs).keys.Get(d).justDown ==
            (s.keys.Get(d).justDown || exists i :: 0 <= i < |evs| && Rising(s.keys.Get(d).down, evs, i, d))
    decreases |evs|
  {
    if |evs| > 0 {
      var n := |evs| - 1;
      var front, e := evs[..n], evs[n];
      assert evs == front + [e];
      ApplyAllSnoc(s, front, e);
      ApplyAllKeys(s, front, d);
      var d0 := s.keys.Get(d).down;
      forall i | 0 <= i < n
        ensures Rising(d0, evs, i, d) == Rising(d0, front, i, d)
      {
        assert evs[..i] == front[..i];
      }
      assert evs[..n] == front;
      var t := ApplyAll(s, front);
      assert Rising(d0, evs, n, d) == (Press(e, d) && e.isDown && !t.keys.Get(d).down);
      if Press(e, d) {
        assert Apply(t, e).keys.Get(d) == KeyState(e.isDown, t.keys.Get(d).justDown || (e.isDown && !t.keys.Get(d).down));
      }
      if exists i :: 0 <= i < |evs| && Rising(d0, evs, i, d) {
        var i :| 0 <= i < |evs| && Rising(d0, evs, i, d);
        if i < n {
          assert Rising(d0, front, i, d);
        }
      }
      if exists i :: 0 <= i < n && Rising(d0, front, i, d) {
        var i :| 0 <= i < n && Rising(d0, front, i, d);
        assert Rising(d0, evs, i, d);
      }
    }
  }

  lemma {:induction false} ApplyAllFlags(s: Polled, evs: seq<Event>)
    ensures ApplyAll(s, evs).doDraw == DrawAfter(s.doDraw, evs)
    ensures ApplyAll(s, evs).resize == (s.resize || exists i :: 0 <= i < |evs| && evs[i] == Window(SizeChanged))
    ensures ApplyAll(s, evs).quit == s.quit
    decreases |evs|
  {
    if |evs| > 0 {
      var n := |evs| - 1;
      var front, e := evs[..n], evs[n];
      assert evs == front + [e];
      ApplyAllSnoc(s, front, e);
      ApplyAllFlags(s, front);
      if exists i :: 0 <= i < n && front[i] == Window(SizeChanged) {
        var i :| 0 <= i < n && front[i] == Window(SizeChanged);
        assert evs[i] == Window(SizeChanged);
      }
    }
  }

  /** What one update's event handling computes, stated over the handled
      events P (those before the first quit, close or Escape press):
      - each arrow's down flag is the state given by its last non-repeat
        event in P, or the previous one;
      - its "just pressed" flag is set exactly when some event of P pressed
        it while it was up (`just_down |= is_down && !down`);
      - `do_draw` follows the last shown/exposed/hidden/minimized event;
      - `window_resize` is set iff P holds a size change;
      - `game_quit` is set iff some event ends the loop, and then the
        output's draw flag is 0. */
  lemma HandleEventsSpec(keys: Keys, doDraw: bool, events: seq<Event>, d: Dir)
    ensures var (p, out) := HandleEvents(keys, doDraw, events);
            var P := Handled(events);
            && p.keys.Get(d).down == DownAfter(keys.Get(d).down, P, d)
            && (p.keys.Get(d).justDown <==> exists i :: 0 <= i < |P| && Rising(keys.Get(d).down, P, i, d))
            && p.doDraw == DrawAfter(doDraw, P)
            && (out.windowResize <==> exists i :: 0 <= i < |P| && P[i] == Window(SizeChanged))
            && (out.gameQuit <==> exists i :: 0 <= i < |events| && EndsPoll(events[i]))
            && (out.gameQuit ==> !out.doDraw)
            && (!out.gameQuit ==> out.doDraw == p.doDraw)
  {
    var s := Polled(ClearJust(keys), doDraw, false, false);
    ApplyAllKeys(s, Handled(events), d);
    ApplyAllFlags(s, Handled(events));
  }

  /** Folding the handled events, a key repeat changes nothing wherever it
      occurs.  (A repeated Escape press is never handled: it ends the loop.) */
  lemma RepeatsIgnored(s: Polled, evs: seq<Event>, i: nat)
    requires i < |evs| && evs[i].KeyEvent? && evs[i].isRepeat
    ensures ApplyAll(s, evs) == ApplyAll(s, evs[..i] + evs[i + 1..])
  {
    ApplyAllSplit(s, evs[..i], [evs[i]] + evs[i + 1..]);
    assert evs == evs[..i] + ([evs[i]] + evs[i + 1..]);
    ApplyAllSplit(s, evs[..i], evs[i + 1..]);
  }

  lemma {:induction false} ApplyAllSplit(s: Polled, a: seq<Event>, b: seq<Event>)
    ensures ApplyAll(s, a + b) == ApplyAll(ApplyAll(s, a), b)
    decreases |a|
  {
    if |a| > 0 {
      assert (a + b)[1..] == a[1..] + b;
      ApplyAllSplit(Apply(s, a[0]), a[1..], b);
    } else {
      assert a + b == b;
    }
  }
}

=== FILE: memdesc.dfy ===
/** Game memory descriptors (code/types.hh:3-10) and their release by
    `game_free_recursively` (code/main.cc:609-619), with the descriptor
    tree `game_new` builds (code/main.cc:633-651).

    A descriptor owns the block at `mem` (0 is the null pointer) unless it
    is INTERNAL, in which case it lives inside its parent's block.  Its
    `children_total` child descriptors sit at the start of its block. */
module GameMemory {
  import Config

  /** GAME_MEMDESC_TEMP and GAME_MEMDESC_INTERNAL. */
  const TempFlag: bv32 := 1
  const InternalFlag: bv32 := 2

  /** The two flags are single, different bits, so setting or clearing one
      never changes the test of the other. */
  lemma FlagTestsIndependent(f: bv32)
    ensures TempFlag & (TempFlag - 1) == 0 && InternalFlag & (InternalFlag - 1) == 0
    ensures TempFlag & InternalFlag == 0
    ensures (f | TempFlag) & InternalFlag == f & InternalFlag
    ensures (f & !TempFlag) & InternalFlag == f & InternalFlag
    ensures (f | InternalFlag) & TempFlag == f & TempFlag
    ensures (f & !InternalFlag) & TempFlag == f & TempFlag
  {
  }

  datatype MemDesc = MemDesc(mem: nat, allocSize: nat, flags: bv32, children: seq<MemDesc>)

  predicate Internal(d: MemDesc)
  {
    d.flags & InternalFlag != 0
  }

  /** The recursive free can read the descriptor: its children fit at the
      start of its block, a block with children is not null, and the same
      holds for every child it recurses into. */
  predicate Readable(d: MemDesc)
  {
    && |d.children| * Config.MemDescBytes <= d.allocSize
    && (|d.children| > 0 ==> d.mem != 0)
    && forall c :: c in d.children && !Internal(c) ==> Readable(c)
  }

  /** The blocks the descriptor owns: its own and, through every
      non-INTERNAL child, theirs. */
  function Owned(d: MemDesc): multiset<nat>
    decreases d, |d.children| + 1
  {
    (if d.mem != 0 then multiset{d.mem} else multiset{}) + OwnedFrom(d, 0)
  }

  function OwnedFrom(d: MemDesc, i: nat): multiset<nat>
    requires i <= |d.children|
    decreases d, |d.children| - i
  {
    if i == |d.children| then multiset{}
    else (if Internal(d.children[i]) then multiset{} else Owned(d.children[i])) + OwnedFrom(d, i + 1)
  }

  /** Every owned block, and every non-INTERNAL child, has been set to null. */
  predicate Released(d: MemDesc)
  {
    && d.mem == 0
    && forall c :: c in d.children && !Internal(c) ==> Released(c)
  }

  /** The blocks freed, in order, and the descriptor afterwards. */
  datatype Freeing = Freeing(blocks: seq<nat>, desc: MemDesc)

  /** `game_free_recursively`: the non-INTERNAL children first, in order,
      then the descriptor's own block; `free(NULL)` frees nothing. */
  function FreeRecursively(d: MemDesc): (r: Freeing)
    requires Readable(d)
    ensures multiset(r.blocks) == Owned(d)
    ensures d.mem != 0 ==> |r.blocks| > 0 && r.blocks[|r.blocks| - 1] == d.mem
    ensures Released(r.desc)
    ensures r.desc.allocSize == d.allocSize && r.desc.flags == d.flags && |r.desc.children| == |d.children|
    ensures forall i :: 0 <= i < |d.children| && Internal(d.children[i]) ==> r.desc.children[i] == d.children[i]
    ensures forall i :: 0 <= i < |d.children| ==> r.desc.children[i].flags == d.children[i].flags
    decreases d, |d.children| + 1
  {
    var rest := FreeFrom(d, 0);
    var own := if d.mem != 0 then [d.mem] else [];
    var desc := rest.desc.(mem := 0);
    ReleasedByIndex(desc);
    Freeing(rest.blocks + own, desc)
  }

  /** The loop over children `i` and later; the resulting descriptor keeps
      the untouched children before `i`. */
  function FreeFrom(d: MemDesc, i: nat): (r: Freeing)
    requires Readable(d) && i <= |d.children|
    ensures multiset(r.blocks) == OwnedFrom(d, i)
    ensures |r.desc.children| == |d.children|
    ensures forall k :: 0 <= k < i ==> r.desc.children[k] == d.children[k]
    ensures forall k :: i <= k < |d.children| && !Internal(d.children[k]) ==> Released(r.desc.children[k])
    ensures forall k :: i <= k < |d.children| && Internal(d.children[k]) ==> r.desc.children[k] == d.children[k]
    ensures forall k :: 0 <= k < |d.children| ==> r.desc.children[k].flags == d.children[k].flags
    ensures r.desc.mem == d.mem && r.desc.allocSize == d.allocSize && r.desc.flags == d.flags
    decreases d, |d.children| - i
  {
    if i == |d.children| then Freeing([], d)
    else
      var child := d.children[i];
      var here := if Internal(child) then Freeing([], child) else FreeRecursively(child);
      var rest := FreeFrom(d, i + 1);
      Freeing(here.blocks + rest.blocks, d.(children := rest.desc.children[i := here.desc]))
  }

  lemma ReleasedByIndex(d: MemDesc)
    requires d.mem == 0
    requires forall k :: 0 <= k < |d.children| && !Internal(d.children[k]) ==> Released(d.children[k])
    ensures Released(d)
  {
    forall c | c in d.children && !Internal(c) ensures Released(c) {
      var k :| 0 <= k < |d.children| && d.children[k] == c;
    }
  }

  // ---------------------------------------------------------------------
  // The descriptor game_new returns

  /** The Game block of GAME_STACK_SIZE bytes with two children overlaid on
      its first fields: the game stack, INTERNAL, inside the Game block,
      and the separately allocated temp stack, TEMP. */
  function GameDesc(game: nat, stack: nat, stackBytes: nat, temp: nat): (d: MemDesc)
    ensures |d.children| == 2 && Internal(d.children[0]) && !Internal(d.children[1])
  {
    MemDesc(game, Config.GameStackSize, 0,
            [MemDesc(stack, stackBytes, InternalFlag, []),
             MemDesc(temp, Config.TempStackSize, TempFlag, [])])
  }

  /** Freeing the descriptor of `game_new` releases exactly two blocks, the
      temp stack before the Game block, and never the interior game stack. */
  lemma FreeGameReleasesTwoBlocks(game: nat, stack: nat, stackBytes: nat, temp: nat)
    requires game != 0 && temp != 0
    ensures Readable(GameDesc(game, stack, stackBytes, temp))
    ensures FreeRecursively(GameDesc(game, stack, stackBytes, temp)).blocks == [temp, game]
  {
    var d := GameDesc(game, stack, stackBytes, temp);
    GameDescReadable(game, stack, stackBytes, temp);
    var tempDesc := d.children[1];
    FreeLeaf(tempDesc);
    ChildrenBlocks(d);
  }

  lemma GameDescReadable(game: nat, stack: nat, stackBytes: nat, temp: nat)
    requires game != 0
    ensures Readable(GameDesc(game, stack, stackBytes, temp))
  {
    var d := GameDesc(game, stack, stackBytes, temp);
    assert Config.MemDescBytes == 24 && Config.GameStackSize == 1048576;
    assert |d.children| * Config.MemDescBytes <= d.allocSize;
    var s, t := d.children[0], d.children[1];
    assert Readable(t);
    assert forall c :: c in d.children ==> c == s || c == t;
  }

  lemma FreeLeaf(d: MemDesc)
    requires Readable(d) && |d.children| == 0
    ensures FreeRecursively(d).blocks == if d.mem != 0 then [d.mem] else []
  {
    assert FreeFrom(d, 0).blocks == [];
  }

  lemma ChildrenBlocks(d: MemDesc)
    requires Readable(d) && |d.children| == 2
    requires Internal(d.children[0]) && !Internal(d.children[1])
    ensures FreeRecursively(d).blocks
              == FreeRecursively(d.children[1]).blocks + (if d.mem != 0 then [d.mem] else [])
  {
    OwnBlockLast(d);
    FreeFromStep(d, 0);
    FreeFromStep(d, 1);
    assert FreeFrom(d, 2).blocks == [];
  }

  /** The descriptor's own block comes after its children's. */
  lemma OwnBlockLast(d: MemDesc)
    requires Readable(d)
    ensures FreeRecursively(d).blocks == FreeFrom(d, 0).blocks + (if d.mem != 0 then [d.mem] else [])
  {
  }

  /** One iteration of the child loop. */
  lemma FreeFromStep(d: MemDesc, i: nat)
    requires Readable(d) && i < |d.children|
    ensures FreeFrom(d, i).blocks
              == (if Internal(d.children[i]) then [] else FreeRecursively(d.children[i]).blocks) + FreeFrom(d, i + 1).blocks
  {
  }
}

=== FILE: memtype.dfy ===
/** The memory-type search of `create_buffer` (code/main.cc:111-125): the
    first memory type that the buffer accepts (its bit is set in
    `memoryTypeBits`) and that has every requested property flag. */
module MemoryType {

  /** VK_MAX_MEMORY_TYPES: the properties record holds at most 32 types. */
  const MaxMemoryTypes: nat := 32

  function Bit(i: nat): bv32
    requires i < MaxMemoryTypes
  {
    (1 as bv32) << i
  }

  /** `flags` has every bit of `wanted`. */
  predicate HasAll(flags: bv32, wanted: bv32)
  {
    flags & wanted == wanted
  }

  predicate Suitable(filter: bv32, types: seq<bv32>, wanted: bv32, i: nat)
    requires i < |types| <= MaxMemoryTypes
  {
    filter & Bit(i) != 0 && HasAll(types[i], wanted)
  }

  /** The search loop with its `break`; -1 is the fatal "Failed to find
      suitable memory type". */
  method FindMemoryType(filter: bv32, types: seq<bv32>, wanted: bv32) returns (r: int)
    requires |types| <= MaxMemoryTypes
    ensures r == -1 <==> forall i :: 0 <= i < |types| ==> !Suitable(filter, types, wanted, i)
    ensures r != -1 ==> 0 <= r < |types| && Suitable(filter, types, wanted, r)
    ensures r != -1 ==> forall i :: 0 <= i < r ==> !Suitable(filter, types, wanted, i)
  {
    r := -1;
    for i := 0 to |types|
      invariant forall k :: 0 <= k < i ==> !Suitable(filter, types, wanted, k)
    {
      if filter & Bit(i) != 0 && types[i] & wanted == wanted {
        assert Suitable(filter, types, wanted, i);
        return i;
      }
    }
  }
}

=== FILE: quads.dfy ===
/** Geometry of `game_render` (code/main.cc:940-996): one quad per grid
    cell, four vertices and six indices, written to the staging buffers in
    row-major order, and the size of the draw recorded in
    `create_pipeline` (code/main.cc:567-572).

    Positions are modelled in whole pixels: the cell pitch is
    floor(min(width, height) / 4) and a quad is the pitch less 20 pixels,
    offset by 10.  Colours are palette indices. */
module Quads {
  import Config
  import opened Grid

  datatype Vertex = Vertex(x: int, y: int, colour: nat)

  /** The palette entry for tile value `v`: the value, clamped to the last
      entry (so 0, an empty cell, is entry 0). */
  function Colour(v: int): (c: nat)
    requires v >= 0
    ensures c <= Config.LastColour
    ensures v <= Config.LastColour ==> c == v
  {
    if v < Config.LastColour then v else Config.LastColour
  }

  /** The four corners of the quad at (x, y), clockwise from the top left. */
  function Corners(x: nat, y: nat, pitch: int, colour: nat): (q: seq<Vertex>)
    ensures |q| == Config.VerticesPerQuad
    ensures q[0].x == q[3].x == pitch * x + 10 && q[1].x == q[2].x == q[0].x + pitch - 20
    ensures q[0].y == q[1].y == pitch * y + 10 && q[2].y == q[3].y == q[0].y + pitch - 20
    ensures forall i :: 0 <= i < |q| ==> q[i].colour == colour
  {
    var sx, sy, l := pitch * x + 10, pitch * y + 10, pitch - 20;
    [Vertex(sx, sy, colour), Vertex(sx + l, sy, colour), Vertex(sx + l, sy + l, colour), Vertex(sx, sy + l, colour)]
  }

  /** Two triangles over the quad whose first vertex is `base`. */
  function QuadIndices(base: int): (r: seq<int>)
    ensures |r| == Config.IndicesPerQuad
    ensures r[0] == base && r[1] == base + 1 && r[2] == base + 2
    ensures r[3] == base + 2 && r[4] == base + 3 && r[5] == base
    ensures forall j :: 0 <= j < |r| ==> base <= r[j] <= base + 3
  {
    [base, base + 1, base + 2, base + 2, base + 3, base]
  }

  function Pitch(screenW: nat, screenH: nat): nat
  {
    (if screenW < screenH then screenW else screenH) / 4
  }

  /** The four vertices of quad number `k`, or none if there are fewer
      quads. */
  function QuadOf(vertices: seq<Vertex>, k: nat): seq<Vertex>
  {
    if 4 * k + 4 <= |vertices| then vertices[4 * k .. 4 * k + 4] else []
  }

  /** The first `n` quads are in place, in row-major order: quad `k` has
      the indices of the `k`th quad, and the quad of cell (x, y), numbered
      `Index(x, y, w)`, has that cell's corners and colour. */
  ghost predicate Emitted(vertices: seq<Vertex>, indices: seq<int>, n: nat, grid: seq<int>, w: nat, pitch: int)
    requires n <= |grid| && Tiles(grid)
  {
    && |vertices| == 4 * n && |indices| == 6 * n
    && (forall k :: 0 <= k < n ==> indices[6 * k .. 6 * k + 6] == QuadIndices(4 * k))
    && (forall x, y :: 0 <= x < w && 0 <= y && Index(x, y, w) < n ==>
          QuadOf(vertices, Index(x, y, w)) == Corners(x, y, pitch, Colour(grid[Index(x, y, w)])))
  }

  /** Appending the quad of the next cell keeps the earlier quads in place. */
  lemma EmitOne(vertices: seq<Vertex>, indices: seq<int>, x: nat, y: nat, grid: seq<int>, w: nat, pitch: int)
    requires x < w && Index(x, y, w) < |grid| && Tiles(grid)
    requires Emitted(vertices, indices, Index(x, y, w), grid, w, pitch)
    ensures Emitted(vertices + Corners(x, y, pitch, Colour(grid[Index(x, y, w)])),
                    indices + QuadIndices(4 * Index(x, y, w)), Index(x, y, w) + 1, grid, w, pitch)
  {
    var n := Index(x, y, w);
    var v := vertices + Corners(x, y, pitch, Colour(grid[n]));
    var i := indices + QuadIndices(4 * n);
    forall k | 0 <= k < n + 1 ensures i[6 * k .. 6 * k + 6] == QuadIndices(4 * k) {
      if k < n {
        assert i[6 * k .. 6 * k + 6] == indices[6 * k .. 6 * k + 6];
      } else {
        assert i[6 * k .. 6 * k + 6] == QuadIndices(4 * n);
      }
    }
    forall x', y' | 0 <= x' < w && 0 <= y' && Index(x', y', w) < n + 1
      ensures QuadOf(v, Index(x', y', w)) == Corners(x', y', pitch, Colour(grid[Index(x', y', w)]))
    {
      var k := Index(x', y', w);
      if k < n {
        assert v[4 * k .. 4 * k + 4] == vertices[4 * k .. 4 * k + 4];
      } else {
        IndexInjective(x, y, x', y', w);
        assert v[4 * k .. 4 * k + 4] == Corners(x, y, pitch, Colour(grid[n]));
      }
    }
  }

  /** The fill loop: rows `y`, then columns `x`; the quad's first index is
      the vertex cursor divided by the vertex size. */
  method EmitQuads(grid: seq<int>, w: nat, h: nat, screenW: nat, screenH: nat)
    returns (vertices: seq<Vertex>, indices: seq<int>, vertexBytes: nat, indexBytes: nat)
    requires |grid| == w * h && Tiles(grid)
    ensures |vertices| == Config.VerticesPerQuad * (w * h) && |indices| == Config.IndicesPerQuad * (w * h)
    ensures vertexBytes == |vertices| * Config.VertexBytes && indexBytes == |indices| * Config.IndexBytes
    ensures forall k :: 0 <= k < w * h ==> indices[6 * k .. 6 * k + 6] == QuadIndices(4 * k)
    ensures forall x, y :: 0 <= x < w && 0 <= y < h ==>
              Index(x, y, w) < |grid| && QuadOf(vertices, Index(x, y, w)) == Corners(x, y, Pitch(screenW, screenH), Colour(grid[Index(x, y, w)]))
    ensures forall i :: 0 <= i < |indices| ==> 0 <= indices[i] < |vertices|
  {
    var pitch := Pitch(screenW, screenH);
    vertices, indices, vertexBytes, indexBytes := [], [], 0, 0;
    for y := 0 to h
      invariant w * y <= |grid|
      invariant Emitted(vertices, indices, w * y, grid, w, pitch)
      invariant vertexBytes == |vertices| * Config.VertexBytes && indexBytes == |indices| * Config.IndexBytes
    {
      MulMono(w, y + 1, h);
      vertices, indices, vertexBytes, indexBytes := EmitRow(grid, w, y, pitch, vertices, indices, vertexBytes, indexBytes);
    }
    EmittedAll(vertices, indices, grid, w, h, pitch);
  }

  /** The inner loop over the cells of row `y`. */
  method EmitRow(grid: seq<int>, w: nat, y: nat, pitch: int, vertices0: seq<Vertex>, indices0: seq<int>,
                 vertexBytes0: nat, indexBytes0: nat)
    returns (vertices: seq<Vertex>, indices: seq<int>, vertexBytes: nat, indexBytes: nat)
    requires w * (y + 1) <= |grid| && Tiles(grid)
    requires Emitted(vertices0, indices0, w * y, grid, w, pitch)
    requires vertexBytes0 == |vertices0| * Config.VertexBytes && indexBytes0 == |indices0| * Config.IndexBytes
    ensures Emitted(vertices, indices, w * (y + 1), grid, w, pitch)
    ensures vertexBytes == |vertices| * Config.VertexBytes && indexBytes == |indices| * Config.IndexBytes
  {
    vertices, indices, vertexBytes, indexBytes := vertices0, indices0, vertexBytes0, indexBytes0;
    assert Index(0, y, w) == w * y;
    for x := 0 to w
      invariant Index(x, y, w) <= |grid|
      invariant Emitted(vertices, indices, Index(x, y, w), grid, w, pitch)
      invariant vertexBytes == |vertices| * Config.VertexBytes && indexBytes == |indices| * Config.IndexBytes
    {
      var k := Index(x, y, w);
      EmitOne(vertices, indices, x, y, grid, w, pitch);
      var base := vertexBytes / Config.VertexBytes;
      assert base == 4 * k;
      vertices := vertices + Corners(x, y, pitch, Colour(grid[k]));
      vertexBytes := vertexBytes + Config.VerticesPerQuad * Config.VertexBytes;
      indices := indices + QuadIndices(base);
      indexBytes := indexBytes + Config.IndicesPerQuad * Config.IndexBytes;
      assert Index(x + 1, y, w) == k + 1;
    }
    assert Index(w, y, w) == w * (y + 1);
  }

  lemma EmittedAll(vertices: seq<Vertex>, indices: seq<int>, grid: seq<int>, w: nat, h: nat, pitch: int)
    requires |grid| == w * h && Tiles(grid)
    requires Emitted(vertices, indices, w * h, grid, w, pitch)
    ensures forall x, y :: 0 <= x < w && 0 <= y < h ==>
              Index(x, y, w) < |grid| && QuadOf(vertices, Index(x, y, w)) == Corners(x, y, pitch, Colour(grid[Index(x, y, w)]))
    ensures forall i :: 0 <= i < |indices| ==> 0 <= indices[i] < |vertices|
  {
    forall x, y | 0 <= x < w && 0 <= y < h
      ensures Index(x, y, w) < |grid| && QuadOf(vertices, Index(x, y, w)) == Corners(x, y, pitch, Colour(grid[Index(x, y, w)]))
    {
      IndexBound(x, y, w, h);
    }
    forall i | 0 <= i < |indices| ensures 0 <= indices[i] < |vertices| {
      var k := i / 6;
      assert 6 * k <= i < 6 * k + 6 && k < w * h;
      var quad := indices[6 * k .. 6 * k + 6];
      assert quad == QuadIndices(4 * k);
      assert quad[i - 6 * k] == indices[i];
      assert 4 * k + 3 < |vertices|;
    }
  }

  // ---------------------------------------------------------------------
  // The draw

  /** The index count `create_pipeline` records into every command buffer:
      the whole index buffer, INDEX_BUFFER_SIZE / sizeof(int32). */
  const DrawCountAsWritten: nat := Config.IndexBufferSize / Config.IndexBytes

  /** As written, the recorded draw asks for more indices than a frame of
      at most GridStorage cells writes, so the draw reads index-buffer
      entries no frame has written: for the 4x4 game, 96 are written and
      262144 drawn. */
  lemma DrawOverreadsAsWritten(w: nat, h: nat)
    requires w * h <= Config.GridStorage
    ensures Config.IndicesPerQuad * (w * h) < DrawCountAsWritten
    ensures w == 4 && h == 4 ==> DrawCountAsWritten - Config.IndicesPerQuad * (w * h) == 262048
  {
    assert Config.IndexBufferSize == 1048576;
  }

  /** A frame with the draw sized to the indices the frame wrote. */
  datatype Frame = Frame(vertices: seq<Vertex>, indices: seq<int>, vertexBytes: nat, indexBytes: nat, drawCount: nat)

  /** `game_render` followed by the corrected draw of 6 indices per cell:
      every drawn index was written this frame and names a vertex written
      this frame, and a grid that fits its storage fits both staging
      buffers. */
  method RenderFrame(grid: seq<int>, w: nat, h: nat, screenW: nat, screenH: nat) returns (f: Frame)
    requires |grid| == w * h && Tiles(grid)
    ensures f.drawCount == |f.indices| == Config.IndicesPerQuad * (w * h)
    ensures forall i :: 0 <= i < f.drawCount ==> 0 <= f.indices[i] < |f.vertices|
    ensures |f.vertices| == Config.VerticesPerQuad * (w * h)
    ensures w * h <= Config.GridStorage ==>
              f.vertexBytes <= Config.VertexBufferSize && f.indexBytes <= Config.IndexBufferSize
    ensures w * h <= Config.GridStorage ==> f.drawCount < DrawCountAsWritten
  {
    var vertices, indices, vertexBytes, indexBytes := EmitQuads(grid, w, h, screenW, screenH);
    f := Frame(vertices, indices, vertexBytes, indexBytes, |indices|);
    if w * h <= Config.GridStorage {
      BuffersFit(w * h);
      DrawOverreadsAsWritten(w, h);
    }
  }

  /** A full grid of 16 cells needs 1280 vertex bytes and 384 index bytes,
      well inside the 1 MiB staging buffers. */
  lemma BuffersFit(cells: nat)
    requires cells <= Config.GridStorage
    ensures Config.VerticesPerQuad * cells * Config.VertexBytes <= Config.VertexBufferSize
    ensures Config.IndicesPerQuad * cells * Config.IndexBytes <= Config.IndexBufferSize
  {
    assert Config.VertexBufferSize == 1048576 && Config.IndexBufferSize == 1048576;
  }
}

=== FILE: surface.dfy ===
/** Surface negotiation and the per-image sizing of the swapchain:
    `find_device_capabilities` (code/main.cc:175-231), `create_swap_chain`
    (code/main.cc:233-347), the per-image arrays of `create_pipeline`
    (code/main.cc:513-541) and the rebuild of `recreate_swap_chain`
    (code/main.cc:582-603).

    The `mam_stack` arena is modelled by its size alone (a watermark): a
    push adds the pushed bytes, `mam_stack_set_size` sets it back.  Handles
    are 8 bytes on the 64-bit target. */
module Surface {
  import Config

  datatype Extent = Extent(width: nat, height: nat)

  /** What the negotiation reads of VkSurfaceCapabilitiesKHR. */
  datatype Capabilities = Capabilities(
    minImageCount: nat,
    maxImageCount: nat,
    minExtent: Extent,
    maxExtent: Extent)

  datatype PresentMode = Immediate | Mailbox | Fifo | FifoRelaxed | OtherMode

  datatype SurfaceFormat = SurfaceFormat(format: nat, colorSpace: nat)

  /** VK_FORMAT_B8G8R8A8_SRGB and VK_COLOR_SPACE_SRGB_NONLINEAR_KHR. */
  const B8G8R8A8Srgb: nat := 50
  const SrgbNonlinear: nat := 0
  const PreferredFormat := SurfaceFormat(B8G8R8A8Srgb, SrgbNonlinear)

  const HandleBytes: nat := 8

  /** gb_clamp: `min(max(v, lo), hi)`. */
  function Clamp(v: nat, lo: nat, hi: nat): (r: nat)
    ensures lo <= hi ==> lo <= r <= hi
    ensures lo <= v <= hi ==> r == v
    ensures r <= hi
  {
    var up := if v < lo then lo else v;
    if up > hi then hi else up
  }

  /** The drawable size clamped, side by side, into the surface's range. */
  function ChooseExtent(caps: Capabilities, drawable: Extent): (e: Extent)
    ensures caps.minExtent.width <= caps.maxExtent.width ==>
              caps.minExtent.width <= e.width <= caps.maxExtent.width
    ensures caps.minExtent.height <= caps.maxExtent.height ==>
              caps.minExtent.height <= e.height <= caps.maxExtent.height
    ensures caps.minExtent.width <= drawable.width <= caps.maxExtent.width ==> e.width == drawable.width
    ensures caps.minExtent.height <= drawable.height <= caps.maxExtent.height ==> e.height == drawable.height
  {
    Extent(Clamp(drawable.width, caps.minExtent.width, caps.maxExtent.width),
           Clamp(drawable.height, caps.minExtent.height, caps.maxExtent.height))
  }

  /** One image more than the minimum, capped by the maximum when there is
      one (a maximum of 0 means "no limit"). */
  function RequestedImageCount(caps: Capabilities): (n: nat)
    ensures caps.maxImageCount == 0 ==> n == caps.minImageCount + 1
    ensures caps.maxImageCount > 0 ==> n <= caps.maxImageCount && n <= caps.minImageCount + 1
    ensures caps.minImageCount < caps.maxImageCount ==> n == caps.minImageCount + 1
    ensures caps.minImageCount <= caps.maxImageCount || caps.maxImageCount == 0 ==> n >= caps.minImageCount
  {
    var n := caps.minImageCount + 1;
    if caps.maxImageCount > 0 && caps.maxImageCount < n then caps.maxImageCount else n
  }

  predicate Fast(m: PresentMode, pedal: bool)
  {
    m == Mailbox || (pedal && m == Immediate)
  }

  /** The scan of the offered present modes: FIFO unless MAILBOX (or, with
      PEDAL_TO_THE_METAL, IMMEDIATE) is offered, the first such one wins. */
  method ChoosePresentMode(modes: seq<PresentMode>, pedal: bool) returns (m: PresentMode)
    ensures m == Fifo <==> forall i :: 0 <= i < |modes| ==> !Fast(modes[i], pedal)
    ensures m != Fifo ==> exists i :: 0 <= i < |modes| && modes[i] == m && Fast(m, pedal)
                            && forall k :: 0 <= k < i ==> !Fast(modes[k], pedal)
  {
    m := Fifo;
    for i := 0 to |modes|
      invariant forall k :: 0 <= k < i ==> !Fast(modes[k], pedal)
    {
      if modes[i] == Mailbox {
        return Mailbox;
      }
      if pedal && modes[i] == Immediate {
        return Immediate;
      }
    }
  }

  predicate DoesVsync(m: PresentMode)
  {
    m == Fifo || m == FifoRelaxed
  }

  /** The format scan: the preferred sRGB entry when offered, else the
      first entry.  The rating has already rejected GPUs without formats. */
  method ChooseFormat(formats: seq<SurfaceFormat>) returns (f: SurfaceFormat)
    requires |formats| > 0
    ensures f in formats
    ensures PreferredFormat in formats ==> f == PreferredFormat
    ensures PreferredFormat !in formats ==> f == formats[0]
  {
    f := formats[0];
    for i := 0 to |formats|
      invariant PreferredFormat !in formats[..i]
    {
      if formats[i].format == B8G8R8A8Srgb && formats[i].colorSpace == SrgbNonlinear {
        return formats[i];
      }
    }
    assert formats[..|formats|] == formats;
  }

  datatype Negotiated = Negotiated(
    extent: Extent,
    imageCount: nat,
    presentMode: PresentMode,
    vsync: bool,
    format: SurfaceFormat,
    stackSize: nat)

  /** `find_device_capabilities`: the modes and formats lists live on the
      arena only for the duration of the call. */
  method FindDeviceCapabilities(caps: Capabilities, drawable: Extent, modes: seq<PresentMode>,
                                formats: seq<SurfaceFormat>, stackSize: nat)
    returns (n: Negotiated)
    requires |formats| > 0
    ensures n.extent == ChooseExtent(caps, drawable)
    ensures n.imageCount == RequestedImageCount(caps)
    ensures n.presentMode == (if Mailbox in modes then Mailbox else Fifo)
    ensures n.vsync <==> Mailbox !in modes
    ensures n.format in formats && (PreferredFormat in formats <==> n.format == PreferredFormat)
    ensures n.stackSize == stackSize
  {
    var size := stackSize;
    var extent := ChooseExtent(caps, drawable);
    var count := RequestedImageCount(caps);
    size := size + 4 * |modes|;
    var mode := ChoosePresentMode(modes, Config.PedalToTheMetal);
    if Mailbox in modes {
      var i :| 0 <= i < |modes| && modes[i] == Mailbox;
    }
    var vsync := DoesVsync(mode);
    size := size + 8 * |formats|;
    var format := ChooseFormat(formats);
    size := stackSize;
    n := Negotiated(extent, count, mode, vsync, format, size);
  }

  // ---------------------------------------------------------------------
  // Swapchain sizing

  datatype Sharing = Exclusive | Concurrent(families: seq<nat>)

  /** Exclusive ownership when one family draws and presents, otherwise
      concurrent sharing between the two families. */
  function ChooseSharing(draw: nat, present: nat): (s: Sharing)
    ensures s.Exclusive? <==> draw == present
    ensures s.Concurrent? ==> s.families == [draw, present]
  {
    if draw == present then Exclusive else Concurrent([draw, present])
  }

  /** The per-image state built by `create_swap_chain` and `create_pipeline`.
      Handles are represented by the image they belong to. */
  datatype Swapchain = Swapchain(
    sharing: Sharing,
    size: nat,
    imageViews: seq<nat>,
    uniformBytes: nat,
    descriptorOffsets: seq<nat>,
    framebuffers: seq<nat>,
    commandBuffers: seq<nat>,
    stackStart: nat,
    stackSize: nat)

  /** Arena bytes of the six per-image arrays: images, views, descriptor
      set layouts, descriptor sets, framebuffers, command buffers. */
  function Footprint(n: nat): nat
  {
    6 * HandleBytes * n
  }

  /** Slice `i` of the uniform buffer. */
  predicate InSlice(s: Swapchain, i: nat, byte: nat)
    requires i < |s.descriptorOffsets|
  {
    s.descriptorOffsets[i] <= byte < s.descriptorOffsets[i] + Config.UniformBytes
  }

  /** The swapchain built for `platformCount` images, the count the
      platform reports back (which replaces the requested count). */
  method CreateSwapchain(draw: nat, present: nat, platformCount: nat, stackSize: nat) returns (s: Swapchain)
    ensures s.sharing == ChooseSharing(draw, present)
    ensures s.size == platformCount
    ensures |s.imageViews| == |s.descriptorOffsets| == |s.framebuffers| == |s.commandBuffers| == s.size
    ensures s.uniformBytes == s.size * Config.UniformBytes
    ensures forall i :: 0 <= i < s.size ==> s.descriptorOffsets[i] + Config.UniformBytes <= s.uniformBytes
    ensures forall i, j, b :: 0 <= i < j < s.size && InSlice(s, i, b) ==> !InSlice(s, j, b)
    ensures s.stackStart == stackSize && s.stackSize == stackSize + Footprint(s.size)
  {
    var n := platformCount;
    var views: seq<nat>, offsets: seq<nat>, framebuffers: seq<nat>, commands: seq<nat> := [], [], [], [];
    for i := 0 to n
      invariant |views| == |offsets| == |framebuffers| == |commands| == i
      invariant forall k :: 0 <= k < i ==> offsets[k] == k * Config.UniformBytes
    {
      views := views + [i];
      offsets := offsets + [i * Config.UniformBytes];
      framebuffers := framebuffers + [i];
      commands := commands + [i];
    }
    s := Swapchain(ChooseSharing(draw, present), n, views, n * Config.UniformBytes, offsets,
                   framebuffers, commands, stackSize, stackSize + Footprint(n));
    forall i | 0 <= i < n
      ensures s.descriptorOffsets[i] + Config.UniformBytes <= s.uniformBytes
    {
      SliceFits(i, n);
    }
  }

  lemma SliceFits(i: nat, n: nat)
    requires i < n
    ensures i * Config.UniformBytes + Config.UniformBytes <= n * Config.UniformBytes
  {
    assert i * Config.UniformBytes + Config.UniformBytes == (i + 1) * Config.UniformBytes;
  }

  /** `recreate_swap_chain`: the arena goes back to where the swapchain's
      arrays began and the swapchain is built again, so after any number
      of rebuilds the arena holds exactly one swapchain's arrays, and the
      rebuilt swapchain has every property of a freshly created one for
      the new image count. */
  method RecreateSwapchain(current: Swapchain, draw: nat, present: nat, platformCount: nat) returns (s: Swapchain)
    ensures s.stackStart == current.stackStart
    ensures s.stackSize == current.stackStart + Footprint(platformCount)
    ensures s.size == platformCount
    ensures s.sharing == ChooseSharing(draw, present)
    ensures |s.imageViews| == |s.descriptorOffsets| == |s.framebuffers| == |s.commandBuffers| == s.size
    ensures s.uniformBytes == s.size * Config.UniformBytes
    ensures forall i :: 0 <= i < s.size ==> s.descriptorOffsets[i] + Config.UniformBytes <= s.uniformBytes
    ensures forall i, j, b :: 0 <= i < j < s.size && InSlice(s, i, b) ==> !InSlice(s, j, b)
  {
    var size := current.stackStart;
    s := CreateSwapchain(draw, present, platformCount, size);
  }
}

=== FILE: teardown.dfy ===
/** `main_cleanup` (code/main.cc:49-79): an ordered sweep over the record of
    Vulkan handles, run at normal exit and from the error trap after a
    fatal error part-way through initialisation.

    A handle is a number, 0 standing for VK_NULL_HANDLE.  A pointer to an
    array of handles is `Null` or a `Block` of entries; reading entry `i`
    of a `Null` pointer, or past the end of a block, is a crash.  The sweep
    is a fixed plan of 23 steps, one per source line, and each step
    destroys handles of exactly one kind (its slot). */
module Teardown {
  import Config

  datatype Slot =
    | ImageAvailableSem | RenderFinishedSem | InFlightFence | CommandPool | Framebuffer
    | Pipeline | PipelineLayout | RenderPass | ShaderModule | ImageView | SwapchainSlot
    | DescriptorSetLayout | VertexBuffer | VertexBufferMemory | IndexBuffer | IndexBufferMemory
    | UniformBuffer | UniformBufferMemory | DescriptorPool | SurfaceSlot | DeviceSlot | InstanceSlot

  /** Position of a slot in the sweep; position 0 is the initial wait. */
  function SlotRank(s: Slot): nat
  {
    match s
    case ImageAvailableSem => 1
    case RenderFinishedSem => 2
    case InFlightFence => 3
    case CommandPool => 4
    case Framebuffer => 5
    case Pipeline => 6
    case PipelineLayout => 7
    case RenderPass => 8
    case ShaderModule => 9
    case ImageView => 10
    case SwapchainSlot => 11
    case DescriptorSetLayout => 12
    case VertexBuffer => 13
    case VertexBufferMemory => 14
    case IndexBuffer => 15
    case IndexBufferMemory => 16
    case UniformBuffer => 17
    case UniformBufferMemory => 18
    case DescriptorPool => 19
    case SurfaceSlot => 20
    case DeviceSlot => 21
    case InstanceSlot => 22
  }

  datatype Array = Null | Block(entries: seq<nat>)

  /** The handles of MvkData that the sweep reads.  The semaphore arrays
      are the two halves of one allocation; the shader modules are read
      through the shader-stage array. */
  datatype Mvk = Mvk(
    device: nat,
    instance: nat,
    surface: nat,
    imageAvailableSems: Array,
    renderFinishedSems: Array,
    inFlightFences: Array,
    commandPool: nat,
    frameBuffers: Array,
    pipeline: nat,
    pipelineLayout: nat,
    renderPass: nat,
    shaderModules: Array,
    shaderStagesSize: nat,
    imageViews: Array,
    swapChainSize: nat,
    swapChain: nat,
    descriptorSetLayout: nat,
    vertexBuffer: nat,
    vertexBufferMemory: nat,
    indexBuffer: nat,
    indexBufferMemory: nat,
    uniformBuffer: nat,
    uniformBufferMemory: nat,
    descriptorPool: nat)

  /** The record as it is before initialisation: everything zero. */
  const Zero := Mvk(0, 0, 0, Null, Null, Null, 0, Null, 0, 0, 0, Null, 0, Null, 0, 0, 0, 0, 0, 0, 0, 0, 0, 0)

  datatype Call = DeviceWaitIdle | Destroy(slot: Slot, handle: nat)

  function CallRank(c: Call): nat
  {
    match c
    case DeviceWaitIdle => 0
    case Destroy(s, _) => SlotRank(s)
  }

  /** The calls issued, and whether the sweep crashed after them. */
  datatype Outcome = Outcome(calls: seq<Call>, crashed: bool)

  /** One line of the sweep: the guarded wait, a guarded single handle, or
      a loop over `count` entries of an array, run only when `enabled`. */
  datatype Step =
    | WaitIdle(device: nat)
    | Single(slot: Slot, handle: nat)
    | Loop(slot: Slot, arr: Array, count: nat, enabled: bool)

  function StepRank(st: Step): nat
  {
    match st
    case WaitIdle(_) => 0
    case Single(s, _) => SlotRank(s)
    case Loop(s, _, _, _) => SlotRank(s)
  }

  function DestroyAll(s: Slot, hs: seq<nat>): (cs: seq<Call>)
    ensures |cs| == |hs|
    ensures forall i :: 0 <= i < |hs| ==> cs[i] == Destroy(s, hs[i])
  {
    if |hs| == 0 then [] else [Destroy(s, hs[0])] + DestroyAll(s, hs[1..])
  }

  function RunStep(st: Step): (o: Outcome)
    ensures forall c :: c in o.calls ==> CallRank(c) == StepRank(st)
  {
    match st
    case WaitIdle(d) => Outcome(if d != 0 then [DeviceWaitIdle] else [], false)
    case Single(s, h) => Outcome(if h != 0 then [Destroy(s, h)] else [], false)
    case Loop(s, a, n, enabled) =>
      if !enabled || n == 0 then Outcome([], false)
      else if a.Null? || |a.entries| < n then Outcome([], true)
      else Outcome(DestroyAll(s, a.entries[..n]), false)
  }

  /** The steps in order; a crash ends the sweep, so the sweep crashes
      exactly when one of its steps does. */
  function RunPlan(plan: seq<Step>): (o: Outcome)
    ensures o.crashed <==> exists i :: 0 <= i < |plan| && RunStep(plan[i]).crashed
  {
    if |plan| == 0 then Outcome([], false)
    else
      var first := RunStep(plan[0]);
      if first.crashed then first
      else
        var rest := RunPlan(plan[1..]);
        TailSteps(plan);
        Outcome(first.calls + rest.calls, rest.crashed)
  }

  /** Step i of the tail is step i+1 of the plan. */
  lemma TailSteps(plan: seq<Step>)
    requires |plan| > 0
    ensures forall i :: 0 < i < |plan| ==> plan[1..][i - 1] == plan[i]
  {
  }

  /** The sweep of code/main.cc:51-78.  With `guardViews` false it is the
      code as written: the image-view loop runs whenever `swap_chain_size`
      is nonzero.  With `guardViews` true the loop is guarded by the array
      pointer like the framebuffer loop is. */
  function Plan(m: Mvk, guardViews: bool): (plan: seq<Step>)
    ensures |plan| == 23
    ensures forall i :: 0 <= i < |plan| ==> StepRank(plan[i]) == i
  {
    seq(23, i requires 0 <= i < 23 => PlanStep(m, guardViews, i))
  }

  /** Step i of the sweep. */
  function PlanStep(m: Mvk, guardViews: bool, i: nat): (st: Step)
    requires i < 23
    ensures StepRank(st) == i
  {
    var sync := m.imageAvailableSems.Block?;
    match i
    case 0 => WaitIdle(m.device)
    case 1 => Loop(ImageAvailableSem, m.imageAvailableSems, Config.FramesInFlight, sync)
    case 2 => Loop(RenderFinishedSem, m.renderFinishedSems, Config.FramesInFlight, sync)
    case 3 => Loop(InFlightFence, m.inFlightFences, Config.FramesInFlight, sync)
    case 4 => Single(CommandPool, m.commandPool)
    case 5 => Loop(Framebuffer, m.frameBuffers, m.swapChainSize, m.frameBuffers.Block?)
    case 6 => Single(Pipeline, m.pipeline)
    case 7 => Single(PipelineLayout, m.pipelineLayout)
    case 8 => Single(RenderPass, m.renderPass)
    case 9 => Loop(ShaderModule, m.shaderModules, m.shaderStagesSize, true)
    case 10 => Loop(ImageView, m.imageViews, m.swapChainSize, !guardViews || m.imageViews.Block?)
    case 11 => Single(SwapchainSlot, m.swapChain)
    case 12 => Single(DescriptorSetLayout, m.descriptorSetLayout)
    case 13 => Single(VertexBuffer, m.vertexBuffer)
    case 14 => Single(VertexBufferMemory, m.vertexBufferMemory)
    case 15 => Single(IndexBuffer, m.indexBuffer)
    case 16 => Single(IndexBufferMemory, m.indexBufferMemory)
    case 17 => Single(UniformBuffer, m.uniformBuffer)
    case 18 => Single(UniformBufferMemory, m.uniformBufferMemory)
    case 19 => Single(DescriptorPool, m.descriptorPool)
    case 20 => Single(SurfaceSlot, m.surface)
    case 21 => Single(DeviceSlot, m.device)
    case _ => Single(InstanceSlot, m.instance)
  }


  /** `main_cleanup` as written: its calls come in the source's fixed order,
      it issues none for a zero record, and on a consistent record it
      crashes exactly when the image views are missing while
      `swap_chain_size` is set. */
  function Cleanup(m: Mvk): (o: Outcome)
    ensures RanksAscend(o.calls)
    ensures m == Zero ==> o == Outcome([], false)
    ensures Consistent(m) ==> (o.crashed <==> m.imageViews.Null? && m.swapChainSize > 0)
  {
    CleanupOrdered(m, false);
    CleanupOfZero(m, false);
    SweepCrashesOnMissingViews(m);
    RunPlan(Plan(m, false))
  }

  /** `main_cleanup` with the image-view loop guarded by its pointer: the
      same order, and no crash on any consistent record. */
  function CleanupGuarded(m: Mvk): (o: Outcome)
    ensures RanksAscend(o.calls)
    ensures m == Zero ==> o == Outcome([], false)
    ensures Consistent(m) ==> !o.crashed
  {
    CleanupOrdered(m, true);
    CleanupOfZero(m, true);
    GuardedSweepNeverCrashes(m);
    RunPlan(Plan(m, true))
  }

  // ---------------------------------------------------------------------
  // Facts about any plan whose ranks count up

  /** The handles destroyed in slot `s`, in call order. */
  function DestroyedIn(cs: seq<Call>, s: Slot): (hs: seq<nat>)
    ensures |hs| <= |cs|
  {
    if |cs| == 0 then []
    else (if cs[0].Destroy? && cs[0].slot == s then [cs[0].handle] else []) + DestroyedIn(cs[1..], s)
  }

  lemma DestroyedInAppend(a: seq<Call>, b: seq<Call>, s: Slot)
    ensures DestroyedIn(a + b, s) == DestroyedIn(a, s) + DestroyedIn(b, s)
  {
    if |a| == 0 {
      assert a + b == b;
    } else {
      assert (a + b)[1..] == a[1..] + b;
      DestroyedInAppend(a[1..], b, s);
    }
  }

  lemma {:induction false} DestroyedInOtherRank(cs: seq<Call>, s: Slot)
    requires forall c :: c in cs ==> CallRank(c) != SlotRank(s)
    ensures DestroyedIn(cs, s) == []
  {
    if |cs| > 0 {
      assert cs[0] in cs;
      assert forall c :: c in cs[1..] ==> c in cs;
      DestroyedInOtherRank(cs[1..], s);
    }
  }

  lemma {:induction false} DestroyedInAll(s: Slot, hs: seq<nat>)
    ensures DestroyedIn(DestroyAll(s, hs), s) == hs
  {
    if |hs| > 0 {
      assert DestroyAll(s, hs)[1..] == DestroyAll(s, hs[1..]);
      DestroyedInAll(s, hs[1..]);
    }
  }

  predicate RanksAscend(cs: seq<Call>)
  {
    forall i, j :: 0 <= i < j < |cs| ==> CallRank(cs[i]) <= CallRank(cs[j])
  }

  /** A plan whose step ranks are ascending issues its calls in rank order. */
  lemma {:induction false} RunPlanRanks(plan: seq<Step>, base: nat)
    requires forall i :: 0 <= i < |plan| ==> StepRank(plan[i]) == base + i
    ensures forall c :: c in RunPlan(plan).calls ==> base <= CallRank(c) < base + |plan|
    ensures RanksAscend(RunPlan(plan).calls)
  {
    if |plan| > 0 {
      var first := RunStep(plan[0]);
      var tail := plan[1..];
      TailRanks(plan, base);
      RunPlanRanks(tail, base + 1);
      var rest := RunPlan(tail);
      if !first.crashed {
        var cs := first.calls + rest.calls;
        assert RunPlan(plan).calls == cs;
        forall i, j | 0 <= i < j < |cs| ensures CallRank(cs[i]) <= CallRank(cs[j]) {
          if j < |first.calls| {
            assert cs[i] in first.calls && cs[j] in first.calls;
          } else if i < |first.calls| {
            assert cs[i] in first.calls && cs[j] == rest.calls[j - |first.calls|];
            assert cs[j] in rest.calls;
          } else {
            assert cs[i] == rest.calls[i - |first.calls|] && cs[j] == rest.calls[j - |first.calls|];
          }
        }
      }
    }
  }

  lemma TailRanks(plan: seq<Step>, base: nat)
    requires |plan| > 0
    requires forall i :: 0 <= i < |plan| ==> StepRank(plan[i]) == base + i
    ensures forall i :: 0 <= i < |plan[1..]| ==> StepRank(plan[1..][i]) == (base + 1) + i
  {
    forall i | 0 <= i < |plan[1..]| ensures StepRank(plan[1..][i]) == (base + 1) + i {
      assert plan[1..][i] == plan[i + 1];
    }
  }

  /** In a plan whose ranks count up from `base`, each slot receives exactly
      the calls of the one step of that slot's rank. */
  lemma {:induction false} RunPlanSlots(plan: seq<Step>, base: nat, s: Slot)
    requires forall i :: 0 <= i < |plan| ==> StepRank(plan[i]) == base + i
    requires !RunPlan(plan).crashed
    ensures DestroyedIn(RunPlan(plan).calls, s) ==
              if base <= SlotRank(s) < base + |plan| then DestroyedIn(RunStep(plan[SlotRank(s) - base]).calls, s) else []
  {
    if |plan| > 0 {
      var first := RunStep(plan[0]);
      var tail := plan[1..];
      TailRanks(plan, base);
      var rest := RunPlan(tail);
      assert !first.crashed && !rest.crashed;
      RunPlanSlots(tail, base + 1, s);
      RunPlanRanks(tail, base + 1);
      assert RunPlan(plan).calls == first.calls + rest.calls;
      DestroyedInAppend(first.calls, rest.calls, s);
      if SlotRank(s) == base {
        DestroyedInOtherRank(rest.calls, s);
        assert DestroyedIn(RunPlan(plan).calls, s) == DestroyedIn(first.calls, s);
      } else {
        assert StepRank(plan[0]) == base;
        DestroyedInOtherRank(first.calls, s);
        assert DestroyedIn(RunPlan(plan).calls, s) == DestroyedIn(rest.calls, s);
        if base < SlotRank(s) < base + |plan| {
          assert tail[SlotRank(s) - (base + 1)] == plan[SlotRank(s) - base];
        }
      }
    }
  }

  // ---------------------------------------------------------------------
  // The cleanup

  /** Sizes and pointers as initialisation leaves them at any point: the
      sync arrays are set together with F entries each, every array that
      is allocated is as long as the count it is read with, and the
      shader-stage count is set together with its array.  The image views
      may still be missing while `swap_chain_size` is already set. */
  predicate Consistent(m: Mvk)
  {
    && (m.imageAvailableSems.Block? ==>
          && m.renderFinishedSems.Block? && m.inFlightFences.Block?
          && |m.imageAvailableSems.entries| >= Config.FramesInFlight
          && |m.renderFinishedSems.entries| >= Config.FramesInFlight
          && |m.inFlightFences.entries| >= Config.FramesInFlight)
    && (m.frameBuffers.Block? ==> |m.frameBuffers.entries| >= m.swapChainSize)
    && (m.shaderModules.Block? ==> |m.shaderModules.entries| >= m.shaderStagesSize)
    && (m.shaderModules.Null? ==> m.shaderStagesSize == 0)
    && (m.imageViews.Block? ==> |m.imageViews.entries| >= m.swapChainSize)
  }

  /** A plan whose every step is silent is silent. */
  lemma {:induction false} SilentPlan(plan: seq<Step>)
    requires forall i :: 0 <= i < |plan| ==> RunStep(plan[i]) == Outcome([], false)
    ensures RunPlan(plan) == Outcome([], false)
  {
    if |plan| > 0 {
      assert RunStep(plan[0]) == Outcome([], false);
      forall i | 0 <= i < |plan[1..]| ensures RunStep(plan[1..][i]) == Outcome([], false) {
        assert plan[1..][i] == plan[i + 1];
      }
      SilentPlan(plan[1..]);
    }
  }

  /** A zero-initialised record issues no call at all, guarded or not. */
  lemma CleanupOfZero(m: Mvk, guardViews: bool)
    ensures m == Zero ==> RunPlan(Plan(m, guardViews)) == Outcome([], false)
  {
    if m == Zero {
      var plan := Plan(m, guardViews);
      forall i | 0 <= i < |plan| ensures RunStep(plan[i]) == Outcome([], false) {
      }
      SilentPlan(plan);
    }
  }

  /** Both sweeps issue their calls in the fixed order of the source. */
  lemma CleanupOrdered(m: Mvk, guardViews: bool)
    ensures RanksAscend(RunPlan(Plan(m, guardViews)).calls)
  {
    RunPlanRanks(Plan(m, guardViews), 0);
  }

  /** A single handle is destroyed exactly once when it is not null and never
      when it is null. */
  lemma SingleHandleDestroyedOnce(m: Mvk, guardViews: bool, i: nat)
    requires i < 23 && Plan(m, guardViews)[i].Single?
    requires !RunPlan(Plan(m, guardViews)).crashed
    ensures var st := Plan(m, guardViews)[i];
            DestroyedIn(RunPlan(Plan(m, guardViews)).calls, st.slot) == if st.handle != 0 then [st.handle] else []
  {
    var plan := Plan(m, guardViews);
    var st := plan[i];
    assert SlotRank(st.slot) == i;
    RunPlanSlots(plan, 0, st.slot);
  }

  /** An array loop destroys the first `count` entries, each in turn, when it
      runs, and nothing when it is disabled. */
  lemma LoopDestroysEntries(m: Mvk, guardViews: bool, i: nat)
    requires i < 23 && Plan(m, guardViews)[i].Loop?
    requires !RunPlan(Plan(m, guardViews)).crashed
    ensures var st := Plan(m, guardViews)[i];
            DestroyedIn(RunPlan(Plan(m, guardViews)).calls, st.slot)
              == if st.enabled && st.count > 0 && st.arr.Block? && st.count <= |st.arr.entries|
                 then st.arr.entries[..st.count] else []
  {
    var plan := Plan(m, guardViews);
    var st := plan[i];
    assert SlotRank(st.slot) == i;
    RunPlanSlots(plan, 0, st.slot);
    assert !RunStep(st).crashed;
    if st.enabled && st.count > 0 {
      DestroyedInAll(st.slot, st.arr.entries[..st.count]);
    }
  }

  /** As written, on any consistent record the sweep crashes exactly when
      `swap_chain_size` is set but the image-view array is not. */
  lemma SweepCrashesOnMissingViews(m: Mvk)
    ensures Consistent(m) ==> (RunPlan(Plan(m, false)).crashed <==> m.imageViews.Null? && m.swapChainSize > 0)
  {
    var plan := Plan(m, false);
    if m.imageViews.Null? && m.swapChainSize > 0 {
      assert RunStep(plan[10]).crashed;
    } else if Consistent(m) {
      forall i | 0 <= i < |plan| ensures !RunStep(plan[i]).crashed {
      }
    }
  }

  /** With the pointer guard, the sweep never crashes on a consistent record. */
  lemma GuardedSweepNeverCrashes(m: Mvk)
    ensures Consistent(m) ==> !RunPlan(Plan(m, true)).crashed
  {
    if Consistent(m) {
      var plan := Plan(m, true);
      forall i | 0 <= i < |plan| ensures !RunStep(plan[i]).crashed {
      }
    }
  }

  /** The record after a fatal error in `vkCreateSwapchainKHR`.  The
      initialisation before it has made the instance, surface and device,
      F image-available and F render-finished semaphores, F fences, the two
      shader modules, the command pool, the vertex and index buffers with
      their memory and the descriptor-set layout; the negotiation has set
      `swap_chain_size`; the image views were never allocated. */
  const FailedSwapchain := Zero.(
    device := 7, instance := 1, surface := 2,
    imageAvailableSems := Block([10, 11]), renderFinishedSems := Block([12, 13]), inFlightFences := Block([14, 15]),
    shaderModules := Block([16, 17]), shaderStagesSize := 2, commandPool := 18,
    vertexBuffer := 19, vertexBufferMemory := 20, indexBuffer := 21, indexBufferMemory := 22,
    descriptorSetLayout := 23, swapChainSize := 3)

  lemma FailedSwapchainCrashes()
    ensures Consistent(FailedSwapchain)
    ensures Cleanup(FailedSwapchain).crashed
    ensures !CleanupGuarded(FailedSwapchain).crashed
  {
  }
}

=== FILE: wrappers.dfy ===
/** A value that may be absent, shared by every module of the model. */
module Wrappers {
  datatype Option<T> = None | Some(value: T)
}
